=== FILE: README.md ===
# Flatpak backend of Discover, modelled in Dafny

This project models the catalogue logic of Discover's Flatpak backend
(`FlatpakBackend.cpp`): how the backend builds its resource table from the
AppStream data of every configured remote and from the desktop files of
installed applications, how it identifies a resource with a deployed
flatpak ref, how it fills in install state, runtime and size, and how it
answers free-text searches and `flatpak://` locators.

The backend is modelled as pure functions over immutable values:

- `Installations.Installation` stands for a native libflatpak installation.
  Every answer libflatpak, GIO, AppStream or the file system would give the
  backend is a field of it: the deployed refs in listing order, the remotes
  with their parsed AppStream components, the parsed desktop files, local
  metadata files by path, and the remote metadata and remote sizes by
  (origin, ref). A missing map entry or a `None` is a failing call.
- `Resources.Resource` holds the fields of a `FlatpakResource` the backend
  reads and writes. Its unique id is the `scope/flatpak/origin/type/appId/branch`
  key the backend builds for installed refs.
- `Catalogs.Catalog` is the table `m_resources`: a map plus the order in
  which the table enumerates its keys. Its ghost predicate `Valid()` (every
  key listed exactly once) holds of `EmptyCatalog()` and is kept by `Put`;
  operations that enumerate the table ask for it as the table's
  representation invariant.
- `FlatpakBackend.Backend` holds the system and user installations, the
  table, the `fetching` flag and a count of `fetchingChanged` notifications.
  Its `Valid()` adds that the system installation is not per-user, the
  user one is, and every key holds a '/'. Every operation keeps it.
- Mutation in place is modelled by returning the changed values. A step
  that can fail returns the resource as far as it got together with the
  success flag (`AppMetadata.Step`, `AppSize.SizeOutcome`).

Modules follow the source's structure: `FlatpakRefs` (ref strings),
`Resources`/`Installations`/`Catalogs` (data), `RefMatching` (ref lookup
and install state), `AppMetadata` (bundle ids, fake refs, runtime
metadata), `AppSize` (runtime lookup and sizes), `FlatpakBackend` (loading
the table) and `BackendQueries` (search and locator lookup). `Strings`
and `Seqs` hold the QString and list operations the backend relies on.

## Model

| member | source | states |
|---|---|---|
| Strings.SplitJoin | libdiscover/backends/FlatpakBackend/FlatpakBackend.cpp:153 | Joining the parts of a '/'-split string gives the string back, the fact the runtime lookup relies on when it splits `name/arch/branch` |
| Strings.JoinSplit | libdiscover/backends/FlatpakBackend/FlatpakBackend.cpp:94 | Splitting a join of separator-free parts gives the parts back, so the `%1/%2/%3/%4` ref string splits into the resource's own fields |
| Strings.SplitJoinHead | libdiscover/backends/FlatpakBackend/FlatpakBackend.cpp:94 | Splitting a join whose first part is separator-free yields that part followed by the split of the rest |
| Strings.ContainsIffOccurs | libdiscover/backends/FlatpakBackend/FlatpakBackend.cpp:627 | The contains scan the search uses succeeds exactly when the needle occurs at some position |
| FlatpakRefs.ParseRef | libdiscover/backends/FlatpakBackend/FlatpakBackend.cpp:95 | A parsed ref is well formed, and a string without exactly three separators never parses |
| FlatpakRefs.ParseFormatRoundTrip | libdiscover/backends/FlatpakBackend/FlatpakBackend.cpp:94-95 | Every well-formed ref survives formatting as `kind/name/arch/branch` and parsing |
| FlatpakRefs.FormatRefParsesIffWellFormed | libdiscover/backends/FlatpakBackend/FlatpakBackend.cpp:94-101 | A formatted ref parses if and only if its name, arch and branch are non-empty and separator-free |
| FlatpakRefs.FormatParseRoundTrip | libdiscover/backends/FlatpakBackend/FlatpakBackend.cpp:373-383 | A string that parses is the formatting of the ref it parses to |
| Resources.NewResource | libdiscover/backends/FlatpakBackend/FlatpakBackend.cpp:278-279 | A fresh resource wraps its component, is not installed and has no known size |
| Resources.UniqueIdHasSlash | libdiscover/backends/FlatpakBackend/FlatpakBackend.cpp:189 | Every key `addResource` inserts contains '/' |
| Resources.UniqueIdDetermines | libdiscover/backends/FlatpakBackend/FlatpakBackend.cpp:207-212 | With separator-free origin, AppStream id and branch, equal unique ids mean equal scope, origin, type, id and branch |
| Catalogs.Catalog.Put | libdiscover/backends/FlatpakBackend/FlatpakBackend.cpp:189 | Inserting replaces the value of an existing key in place and appends a new key at the end of the enumeration, keeping every key listed once |
| RefMatching.CompareAppFlatpakRef | libdiscover/backends/FlatpakBackend/FlatpakBackend.cpp:192-226 | An equal unique id always matches; otherwise with arch and branch known it matches if and only if arch, branch and the `.desktop` app id agree, and with either unknown if and only if the flatpak name is the app id or the bare ref name |
| RefMatching.KnownArchBranchAppNeedsExactId | libdiscover/backends/FlatpakBackend/FlatpakBackend.cpp:219-221 | For an application whose flatpak name is the bare ref name and whose arch and branch are known, the heuristic never fires: the comparison succeeds exactly when the unique ids are equal |
| RefMatching.GetInstalledRefForApp | libdiscover/backends/FlatpakBackend/FlatpakBackend.cpp:104-147 | The result is a deployed ref; an exact kind/name/arch/branch deployment always wins; otherwise it is the first ref in listing order of the component's kind that the comparison accepts; nothing exactly when no ref matches either way |
| RefMatching.LookupReadsIdentityOnly | libdiscover/backends/FlatpakBackend/FlatpakBackend.cpp:104-147 | The lookup depends only on component, type, scope, origin, arch, branch and flatpak name, never on state, size, commit, runtime or icon path |
| RefMatching.UpdateAppInstalledMetadata | libdiscover/backends/FlatpakBackend/FlatpakBackend.cpp:428-438 | The resource takes the ref's arch, branch, commit, origin, name and installed size and becomes installed; AppStream data, type, scope, icon path and runtime are kept |
| RefMatching.RefreshedResourceIsExactMatch | libdiscover/backends/FlatpakBackend/FlatpakBackend.cpp:428-438 | After taking a ref's data, a resource of the ref's kind is that ref's exact deployment |
| RefMatching.UpdateAppState | libdiscover/backends/FlatpakBackend/FlatpakBackend.cpp:594-604 | When a deployment is found the resource is exactly the one refreshed from it with that deployment's metadata; otherwise it is marked not installed and otherwise unchanged |
| RefMatching.UpdateAppStateIdempotent | libdiscover/backends/FlatpakBackend/FlatpakBackend.cpp:594-604 | With each ref deployed once and the found ref of the resource's own kind, refreshing the install state twice equals refreshing it once |
| AppMetadata.CreateFakeRef | libdiscover/backends/FlatpakBackend/FlatpakBackend.cpp:89-102 | A fake ref exists if and only if the resource's kind, name, arch and branch form a well-formed ref, and it is exactly that ref |
| AppMetadata.ParseMetadataFromAppBundle | libdiscover/backends/FlatpakBackend/FlatpakBackend.cpp:365-386 | No bundle succeeds unchanged; with a bundle, success if and only if its id parses, and then only arch, branch, name and type change and the resource's ref formats back to the bundle id; failure changes nothing |
| AppMetadata.FakeRefOfBundledResource | libdiscover/backends/FlatpakBackend/FlatpakBackend.cpp:89-102 | After a bundle has been read, the fake ref built for the resource is the ref parsed from the bundle |
| AppMetadata.LocateMetadata | libdiscover/backends/FlatpakBackend/FlatpakBackend.cpp:453-483 | The local `active/metadata` file wins; otherwise the remote copy is used, and it is found exactly when the resource has an origin, a fake ref exists and the remote answers for (origin, ref) |
| AppMetadata.UpdateAppMetadata | libdiscover/backends/FlatpakBackend/FlatpakBackend.cpp:440-511 | Non-applications succeed unchanged; applications succeed if and only if a non-empty metadata document is found, then take its runtime; only the runtime ever changes |
| AppSize.RuntimeSuffix | libdiscover/backends/FlatpakBackend/FlatpakBackend.cpp:152-159 | A runtime suffix is built if and only if the runtime string has exactly three '/'-separated parts, and it is then `runtime/` followed by the first part, '/' and the third part |
| AppSize.RuntimeSuffixOfParts | libdiscover/backends/FlatpakBackend/FlatpakBackend.cpp:153-159 | For separator-free name, arch and branch, the runtime string `name/arch/branch` yields exactly the suffix `runtime/name/branch` |
| AppSize.GetRuntimeForApp | libdiscover/backends/FlatpakBackend/FlatpakBackend.cpp:149-170 | The found key is in the table and ends with `runtime/<name>/<branch>`; nothing is found exactly when the runtime string does not have three parts or no key ends with that suffix |
| AppSize.RuntimeArchIgnored | libdiscover/backends/FlatpakBackend/FlatpakBackend.cpp:159 | The arch part of the runtime string never changes which entry is found |
| AppSize.CataloguedRuntimeIsFound | libdiscover/backends/FlatpakBackend/FlatpakBackend.cpp:153-165 | A runtime stored under its own unique id is found from any `name/arch/branch` naming its AppStream id and branch, and the key found ends with `runtime/<id>/<branch>` |
| AppSize.RemoteSizeOf | libdiscover/backends/FlatpakBackend/FlatpakBackend.cpp:572-581 | The remote size is known if and only if the fake ref exists and the fetch for (origin, ref) succeeds, and then it is that answer |
| AppSize.RuntimeKnown | libdiscover/backends/FlatpakBackend/FlatpakBackend.cpp:532-536 | Only the runtime can change; a known runtime is left alone, and an empty one is read from the application's metadata exactly as `updateAppMetadata` reads it |
| AppSize.FinalSize | libdiscover/backends/FlatpakBackend/FlatpakBackend.cpp:556-589 | Installed: success if and only if a deployment is found, size its installed size; not installed: success if and only if the remote size is known, size the remote installed size plus a not-installed runtime's size |
| AppSize.WithSizedRuntime | libdiscover/backends/FlatpakBackend/FlatpakBackend.cpp:546-553 | After the runtime's own sizing: the sized runtime is stored under its key, and the application succeeds exactly when the runtime sizing succeeded and its remote size is known, taking the remote installed size plus the size of a not-installed runtime |
| AppSize.SizeUnsizedRuntime | libdiscover/backends/FlatpakBackend/FlatpakBackend.cpp:546-551 | When the refreshed runtime entry is neither installed nor sized, the runtime is sized first; running out of the recursion bound or a failed runtime sizing fails the application; for a runtime entry the application succeeds exactly when both remote sizes are known, and takes their sum; every entry keeps its component, type, scope and icon path |
| AppSize.SizeWithRuntime | libdiscover/backends/FlatpakBackend/FlatpakBackend.cpp:539-553 | For a not-installed application with a catalogued runtime: the table keeps its keys, its order and every entry's component, type, scope and icon path; an unknown remote size fails; a refreshed runtime that is installed or already sized gives the remote installed size plus the not-installed runtime's size; a runtime still to be sized fails the application when its own sizing fails, and for a runtime entry the application succeeds exactly when both remote sizes are known and takes their sum |
| AppSize.SizeFromKnownRuntime | libdiscover/backends/FlatpakBackend/FlatpakBackend.cpp:538-591 | Once the runtime string is known: an installed resource succeeds exactly when a deployment is found and takes its installed size; a not-installed one fails without a remote size, and otherwise takes the remote installed size plus its runtime's share, succeeding whenever the runtime is absent, installed or already sized; with a catalogued runtime still to be sized it succeeds exactly when the runtime's own remote size is known too and takes the sum; every entry keeps its component, type, scope and icon path |
| AppSize.UpdateAppSize | libdiscover/backends/FlatpakBackend/FlatpakBackend.cpp:513-592 | A positive size is kept unchanged; only runtime and size of the resource change; an unsized resource ends with the runtime it had, or, when that was empty, the runtime its metadata names; metadata failure fails; installed sizes come from the deployment; a not-installed size is the remote installed size plus the runtime share in the resulting table, and it succeeds whenever the remote size is known and the runtime is absent, installed or already sized; a runtime still to be sized fails the application when its own sizing fails and otherwise adds its remote installed size; the table keeps its keys, its order and every entry's component, type, scope and icon path |
| FlatpakBackend.SetFetching | libdiscover/backends/FlatpakBackend/FlatpakBackend.cpp:606-612 | The flag takes the new value and a notification is sent if and only if it changed |
| FlatpakBackend.SetFetchingTwiceNotifiesOnce | libdiscover/backends/FlatpakBackend/FlatpakBackend.cpp:606-612 | Setting the same value twice notifies no more than setting it once |
| FlatpakBackend.FlatpakInstallationForAppScope | libdiscover/backends/FlatpakBackend/FlatpakBackend.cpp:653-660 | The installation returned is one of the two and has the asked scope |
| FlatpakBackend.PrepareResource | libdiscover/backends/FlatpakBackend/FlatpakBackend.cpp:174-187 | The prepared resource keeps component, scope and icon path; it is installed if and only if its scope's installation deploys it after the bundle is read, and then takes the deployment's positive installed size; an application whose metadata is found takes the runtime named there; an unsized, not-installed resource sized successfully holds the remote installed size plus its runtime's share; the key is its unique id; the table keeps its order and every entry's component, type, scope and icon path |
| FlatpakBackend.AddResource | libdiscover/backends/FlatpakBackend/FlatpakBackend.cpp:172-190 | The table gains at most one key, the unique id the resource has after its bundle is read and its install state refreshed, replacing any entry already stored there, and keeps every earlier key in place; the entry stored is the prepared resource, with the component, scope, icon path, install state, installed size and metadata runtime stated for the preparation; every other earlier entry keeps its component, type, scope and icon path |
| FlatpakBackend.AddComponents | libdiscover/backends/FlatpakBackend/FlatpakBackend.cpp:274-286 | The table gains exactly the keys of the remote's components; every such key holds one of those components with the installation's scope and the AppStream directory as icon path; every other entry keeps its component, type, scope and icon path |
| FlatpakBackend.LoadRemote | libdiscover/backends/FlatpakBackend/FlatpakBackend.cpp:248-286 | A disabled remote, one without AppStream directory, or one whose AppStream file is missing or unparsable changes nothing; any other remote adds exactly the keys of its components, each holding one of its components with the installation's scope and the remote's AppStream directory as icon path; every other entry keeps its data |
| FlatpakBackend.LoadRemotes | libdiscover/backends/FlatpakBackend/FlatpakBackend.cpp:241-288 | The loop over the remotes adds exactly the keys of the components of the remotes that are not skipped; each such key holds a component of one of those remotes with its AppStream directory as icon path and the installation's scope; every other entry keeps its data |
| FlatpakBackend.FailingRemoteIsolated | libdiscover/backends/FlatpakBackend/FlatpakBackend.cpp:248-272 | A remote that is skipped leaves the result exactly as if it were not configured |
| FlatpakBackend.LoadAppsFromAppstreamData | libdiscover/backends/FlatpakBackend/FlatpakBackend.cpp:228-291 | Reports failure, loading nothing, if and only if the remotes cannot be listed; otherwise the table gains exactly the keys of the components of every remote that is not skipped, each holding a component of one of the installation's remotes with that remote's AppStream directory and the installation's scope; every other entry keeps its data |
| FlatpakBackend.DesktopResource | libdiscover/backends/FlatpakBackend/FlatpakBackend.cpp:335-342 | A desktop-file resource is an installed application of the installation's scope with the exports directory as icon path |
| FlatpakBackend.UniqueIdOriginField | libdiscover/backends/FlatpakBackend/FlatpakBackend.cpp:207-212 | With a separator-free origin, the third field of a unique id is the origin |
| FlatpakBackend.DesktopOnlyAppNotDeployed | libdiscover/backends/FlatpakBackend/FlatpakBackend.cpp:104-147 | A desktop-file resource without a bundle is never matched to any well-formed deployment, since it has no flatpak name, arch, branch or origin |
| FlatpakBackend.ReconcileDesktopEntry | libdiscover/backends/FlatpakBackend/FlatpakBackend.cpp:318-358 | Skipped files change nothing; with a known twin only that entry's scope and state change and no key is added; without one the resource is added under its unique id |
| FlatpakBackend.FindTwin | libdiscover/backends/FlatpakBackend/FlatpakBackend.cpp:344-353 | The first key in enumeration order whose entry is a twin of the desktop-file resource; nothing exactly when the table holds no twin |
| FlatpakBackend.AdoptTwin | libdiscover/backends/FlatpakBackend/FlatpakBackend.cpp:348-350 | The twin takes the desktop-file resource's scope and state; keys, order and every other entry are unchanged |
| FlatpakBackend.SkippedEntryIsolated | libdiscover/backends/FlatpakBackend/FlatpakBackend.cpp:318-333 | `mimeinfo.cache` and unparsable desktop files leave the result exactly as if they were absent |
| FlatpakBackend.DesktopOnlyAppStoredNotInstalled | libdiscover/backends/FlatpakBackend/FlatpakBackend.cpp:335-358 | A desktop-only application that meets no twin is stored under its key as not installed, although its desktop file marked it installed |
| FlatpakBackend.LoadDesktopEntriesKeys | libdiscover/backends/FlatpakBackend/FlatpakBackend.cpp:311-358 | The loop over the desktop files adds exactly the keys of the files that are not skipped and meet no twin in the table at their turn |
| FlatpakBackend.DesktopKeysAreCandidates | libdiscover/backends/FlatpakBackend/FlatpakBackend.cpp:318-333 | Skipped files never add a key |
| FlatpakBackend.DesktopFileLands | libdiscover/backends/FlatpakBackend/FlatpakBackend.cpp:344-357 | Every desktop file that is not skipped either met a twin at its turn or ends with its own key in the table |
| FlatpakBackend.LoadInstalledApps | libdiscover/backends/FlatpakBackend/FlatpakBackend.cpp:293-363 | A missing applications directory changes nothing; otherwise the table gains exactly the keys of the desktop files that are not skipped and meet no twin at their turn, and no key from a skipped file; every entry under a key no desktop file can add keeps its component, type and icon path, and changes scope only when it is the twin of one of the installation's desktop files, taking that installation's scope |
| FlatpakBackend.ReloadPackageList | libdiscover/backends/FlatpakBackend/FlatpakBackend.cpp:388-411 | Ends not fetching with the notifications a raise and a lower send, keeps both installations and every earlier key in place, holds every key the AppStream data of both installations adds, and no key beyond those and the keys of installed desktop files; an entry under a key neither installation can add keeps its component, type and icon path, its scope changing only as the twin of an installed desktop file; a key only AppStream data can add holds a component of one of that installation's remotes |
| FlatpakBackend.LoadedBackend | libdiscover/backends/FlatpakBackend/FlatpakBackend.cpp:55-69 | Loading the package list into an empty table over two set-up installations ends valid, not fetching, after two notifications, holding every AppStream key of both installations and nothing beyond those and the keys of their installed desktop files; every key no desktop file can add holds a component of one of the installations' remotes |
| FlatpakBackend.Construct | libdiscover/backends/FlatpakBackend/FlatpakBackend.cpp:55-69 | A backend exists if and only if both installations were set up; it then holds them, has sent two notifications, and its table holds exactly the AppStream keys of both installations plus some keys of their installed desktop files; every key no desktop file can add holds a component of one of the installations' remotes |
| BackendQueries.SearchIn | libdiscover/backends/FlatpakBackend/FlatpakBackend.cpp:622-628 | The matches under a list of keys are exactly the matching resources stored under those keys |
| BackendQueries.SearchInCount | libdiscover/backends/FlatpakBackend/FlatpakBackend.cpp:622-628 | Over distinct stored keys, the search yields one resource per matching key: the result has as many elements as there are matching keys |
| BackendQueries.Search | libdiscover/backends/FlatpakBackend/FlatpakBackend.cpp:619-631 | A stream named FlatpakStream whose resources are exactly the applications of the table whose name or summary contains the search text ignoring case, as many as there are matching keys |
| BackendQueries.SearchIgnoresFilterCase | libdiscover/backends/FlatpakBackend/FlatpakBackend.cpp:627 | Lower-casing the search text never changes the results |
| BackendQueries.LocatorKey | libdiscover/backends/FlatpakBackend/FlatpakBackend.cpp:635 | The key is the host with every dot replaced by a space and every other character kept |
| BackendQueries.FindResourceByPackageName | libdiscover/backends/FlatpakBackend/FlatpakBackend.cpp:633-641 | At most one result; one exactly when the scheme is `flatpak` and the host with dots replaced by spaces is a key, and then the resource under it |
| BackendQueries.LocatorFindsDotlessKey | libdiscover/backends/FlatpakBackend/FlatpakBackend.cpp:633-641 | Every key without dots is found from the `flatpak` URL whose host is that key |
| BackendQueries.LocatorMissesUniqueIds | libdiscover/backends/FlatpakBackend/FlatpakBackend.cpp:635 | Because every key is a unique id holding '/', a host without '/' finds nothing |

## Left out

- libflatpak, GIO, AppStream and file-system calls are not modelled; their answers are fields of `Installations.Installation`. Cancellation and GError reporting are not modelled either.
- Parsing of AppStream XML, desktop files and the key/value metadata file, and the temporary file `updateAppMetadata` writes for QSettings, are not modelled: a parsed component or the `runtime` value is given; a temporary file that cannot be opened is not a modelled failure.
- `flatpak_ref_parse` is modelled by its shape only (four '/'-separated fields, kind `app` or `runtime`, no empty field); libflatpak's character checks on names, arches and branches are not modelled.
- URL parsing and QUrl's host normalisation are not modelled: `BackendQueries.Url` holds scheme and host as given.
- Strings.Lower: case-insensitive comparison folds ASCII letters only; Qt's full Unicode case folding is not modelled.
- FlatpakBackend.Construct: when setting up the installations fails, the source still keeps a backend, with no installations, fetching off and an empty table, whose searches answer with empty streams; the model returns None there instead, because a modelled backend always holds both installations.
- AppSize.UpdateAppSize: sizes are unbounded naturals, so the 64-bit sum of runtime and app size is not wrapped. When the runtimes name each other in a cycle, with none installed or sized, the source sizes the runtime again and again without end (line 548); the model bounds this recursion by a fuel equal to the number of table keys and reports running out of fuel, which only happens while a runtime is still unsized, as failure instead.
- FlatpakBackend.PrepareResource: the size of a resource whose deployment is found is stated only when the deployment reports a positive installed size; with a zero installed size the source stores that zero as well, which the contract does not pin.
- The hash iteration order of `m_resources` is not visible in the source; the model enumerates keys in insertion order.
- Resources.Resource: `flatpakName()`, `appstreamId()`, `arch()`, `branch()` and `origin()` are plain fields, because FlatpakResource.cpp is not part of this model; no fallback of the flatpak name to the AppStream id is modelled. As a consequence an application known only from its desktop file, without a bundle, has no flatpak name, arch, branch or origin, is never matched to a well-formed deployment and is stored not installed (FlatpakBackend.DesktopOnlyAppStoredNotInstalled); if the real accessor falls back to the AppStream id, such an application would be found installed.
- FlatpakResource.cpp is not part of this model: the new-resource defaults (application, system scope, empty fields, size 0, not installed), `uniqueId`, `typeAsString`, `scopeAsString`, `name` (component name) and `comment` (component summary) are assumed.
- The null-installation checks in `getInstalledRefForApp`, `loadAppsFromAppstreamData` and `loadInstalledApps` cannot fire: the package list is only loaded when both installations exist, so the model has no null installation.
- The `g_file_new_for_path` null check in `loadInstalledApps` cannot fire and is not modelled; the directory listing order is taken as given.
- Install and remove transactions, `checkForUpdates` (empty), `updatesCount`, `backendUpdater`, `reviewsBackend`, the destructor, and the constructor's update action and sources backend are outside the catalogue logic and not modelled.
- Logging (`qWarning`) is not modelled.

=== FILE: backend.dfy ===
/** The flatpak backend's catalog: its two installations, its resource
    table and its `fetching` flag, and the operations that fill the table:
    `addResource`, `loadAppsFromAppstreamData`, `loadInstalledApps`,
    `reloadPackageList` and the constructor. */
module FlatpakBackend {
  import opened Wrappers
  import opened Seqs
  import opened Strings
  import opened FlatpakRefs
  import opened Resources
  import opened Installations
  import opened Catalogs
  import opened RefMatching
  import opened AppMetadata
  import opened AppSize

  /** `fetchingChanges` counts the `fetchingChanged` notifications sent. */
  datatype Backend = Backend(
    system: Installation,
    user: Installation,
    resources: Catalog,
    fetching: bool,
    fetchingChanges: nat)
  {
    /** The system installation is not per-user, the user one is, and every
        key of the table is a unique id, so it holds a '/'. */
    ghost predicate Valid()
    {
      && !system.isUser && user.isUser
      && resources.Valid()
      && forall k :: k in resources.entries ==> '/' in k
    }
  }

  /** `setFetching`: stores the flag and notifies only when it changes. */
  function SetFetching(b: Backend, fetching: bool): (out: Backend)
    ensures out.fetching == fetching
    ensures out.fetchingChanges > b.fetchingChanges <==> b.fetching != fetching
    ensures out.fetchingChanges <= b.fetchingChanges + 1
    ensures out.(fetching := b.fetching, fetchingChanges := b.fetchingChanges) == b
  {
    if b.fetching != fetching then b.(fetching := fetching, fetchingChanges := b.fetchingChanges + 1)
    else b
  }

  /** Setting the flag to the value it already has is silent. */
  lemma SetFetchingTwiceNotifiesOnce(b: Backend, fetching: bool)
    ensures SetFetching(SetFetching(b, fetching), fetching) == SetFetching(b, fetching)
  {
  }

  /** `flatpakInstallationForAppScope`. */
  function FlatpakInstallationForAppScope(b: Backend, scope: Scope): (inst: Installation)
    ensures b.Valid() ==> ScopeOf(inst) == scope
    ensures inst == b.system || inst == b.user
  {
    if scope == System then b.system
    else
      assert scope == User;
      b.user
  }

  /** The key `addResource` stores `res` under: its unique id once its
      bundle is read and its install state refreshed from the installation
      of its scope. The later steps change only runtime and size, so the key
      depends on the two installations and never on the table. */
  function AddedKey(system: Installation, user: Installation, res: Resource): string
  {
    var bundled := ParseMetadataFromAppBundle(res).resource;
    UniqueId(UpdateAppState(if bundled.scope == System then system else user, bundled))
  }

  /** The resource `addResource` stores for `res`, and the table after the
      size computation that precedes the insertion. */
  function PrepareResource(b: Backend, res: Resource): (out: SizeOutcome)
    requires b.Valid()
    ensures out.resources.Valid() && out.resources.order == b.resources.order
    ensures KeepsData(b.resources, out.resources)
    ensures UniqueId(out.resource) == AddedKey(b.system, b.user, res)
    ensures PreparedFrom(b, res, out.resource)
    ensures var inst := FlatpakInstallationForAppScope(b, res.scope);
            res.size == 0 && !IsInstalled(out.resource) && out.ok ==>
              RemoteSizeOf(inst, out.resource).Some?
              && out.resource.size == RemoteSizeOf(inst, out.resource).value.installed
                                      + RuntimeShare(out.resources, out.resource)
  {
    var bundled := ParseMetadataFromAppBundle(res).resource;
    var inst := FlatpakInstallationForAppScope(b, bundled.scope);
    var stated := UpdateAppState(inst, bundled);
    var described := if stated.rtype == DesktopApp then UpdateAppMetadata(inst, stated).resource else stated;
    UpdateAppSize(inst, b.resources, described, |b.resources.order|)
  }

  /** What `addResource` makes of `res` before storing it: component,
      scope and icon path are kept; it is installed exactly when its
      scope's installation deploys it once the bundle is read, and then
      takes the deployment's installed size when that is positive; an
      application whose metadata is found takes the runtime named there. */
  ghost predicate PreparedFrom(b: Backend, res: Resource, r: Resource)
  {
    var bundled := ParseMetadataFromAppBundle(res).resource;
    var inst := FlatpakInstallationForAppScope(b, res.scope);
    var found := GetInstalledRefForApp(inst, bundled);
    var stated := UpdateAppState(inst, bundled);
    && r.component == res.component && r.scope == res.scope && r.iconPath == res.iconPath
    && (IsInstalled(r) <==> found.Some?)
    && (found.Some? && found.value.installedSize > 0 ==> r.size == found.value.installedSize)
    && (stated.rtype == DesktopApp && UpdateAppMetadata(inst, stated).ok ==>
          r.runtime == UpdateAppMetadata(inst, stated).resource.runtime)
  }

  /** `addResource` stored the resource prepared from `res` under its own
      unique id, and under no other new key. */
  ghost predicate AddedUnder(b: Backend, out: Backend, res: Resource, k: string)
  {
    && k in out.resources.entries
    && k == UniqueId(out.resources.entries[k])
    && out.resources.entries.Keys == b.resources.entries.Keys + {k}
    && PreparedFrom(b, res, out.resources.entries[k])
  }

  /** `addResource`: fills in the resource (bundle, install state, runtime,
      size) and inserts it under its unique id, replacing any entry already
      there; the table gains at most that one key. */
  function AddResource(b: Backend, res: Resource): (out: Backend)
    requires b.Valid()
    ensures out.Valid()
    ensures out.system == b.system && out.user == b.user
    ensures out.fetching == b.fetching && out.fetchingChanges == b.fetchingChanges
    ensures |b.resources.order| <= |out.resources.order| <= |b.resources.order| + 1
    ensures out.resources.order[..|b.resources.order|] == b.resources.order
    ensures out.resources.entries.Keys == b.resources.entries.Keys + {AddedKey(b.system, b.user, res)}
    ensures AddedUnder(b, out, res, AddedKey(b.system, b.user, res))
    ensures out.resources.entries[AddedKey(b.system, b.user, res)] == PrepareResource(b, res).resource
    ensures forall k :: k in b.resources.entries && k != AddedKey(b.system, b.user, res) ==>
              SameData(b.resources.entries[k], out.resources.entries[k])
  {
    var prepared := PrepareResource(b, res);
    var key := AddedKey(b.system, b.user, res);
    UniqueIdHasSlash(prepared.resource);
    var out := b.(resources := prepared.resources.Put(key, prepared.resource));
    assert AddedUnder(b, out, res, key);
    out
  }

  /** The resource built for one component of a remote's AppStream data. */
  function RemoteResource(inst: Installation, remote: string, dir: string, c: Component): Resource
  {
    NewResource(c).(scope := ScopeOf(inst), iconPath := dir, origin := remote)
  }

  /** The tables only grow: every earlier key stays, in its place. */
  ghost predicate Grows(b: Backend, out: Backend)
  {
    && out.system == b.system && out.user == b.user
    && out.fetching == b.fetching && out.fetchingChanges == b.fetchingChanges
    && |b.resources.order| <= |out.resources.order|
    && out.resources.order[..|b.resources.order|] == b.resources.order
    && b.resources.entries.Keys <= out.resources.entries.Keys
  }

  lemma GrowsTransitive(a: Backend, b: Backend, c: Backend)
    requires Grows(a, b) && Grows(b, c)
    ensures Grows(a, c)
  {
    assert c.resources.order[..|a.resources.order|] == c.resources.order[..|b.resources.order|][..|a.resources.order|];
  }

  /** The keys the resources of a remote's components are stored under. */
  function ComponentKeys(system: Installation, user: Installation, inst: Installation,
                         remote: string, dir: string, cs: seq<Component>): set<string>
  {
    set c | c in cs :: AddedKey(system, user, RemoteResource(inst, remote, dir, c))
  }

  lemma ComponentKeysCons(system: Installation, user: Installation, inst: Installation,
                          remote: string, dir: string, cs: seq<Component>)
    requires |cs| > 0
    ensures ComponentKeys(system, user, inst, remote, dir, cs)
            == {AddedKey(system, user, RemoteResource(inst, remote, dir, cs[0]))}
               + ComponentKeys(system, user, inst, remote, dir, cs[1..])
  {
    assert forall c :: c in cs <==> c == cs[0] || c in cs[1..];
  }

  /** Adds the resources of a remote's components in order: the table gains
      exactly the components' keys, each holding one of the components
      with the installation's scope and the remote's icon directory, and
      every other entry keeps its data. */
  function AddComponents(b: Backend, inst: Installation, remote: string, dir: string, cs: seq<Component>): (out: Backend)
    requires b.Valid()
    ensures out.Valid() && Grows(b, out)
    ensures |out.resources.order| <= |b.resources.order| + |cs|
    ensures out.resources.entries.Keys
            == b.resources.entries.Keys + ComponentKeys(b.system, b.user, inst, remote, dir, cs)
    ensures KeepsDataExcept(b.resources, out.resources, ComponentKeys(b.system, b.user, inst, remote, dir, cs))
    ensures forall k :: k in ComponentKeys(b.system, b.user, inst, remote, dir, cs) ==>
              k in out.resources.entries && out.resources.entries[k].component in cs
              && out.resources.entries[k].scope == ScopeOf(inst) && out.resources.entries[k].iconPath == dir
    decreases |cs|
  {
    if |cs| == 0 then b
    else
      var next := AddResource(b, RemoteResource(inst, remote, dir, cs[0]));
      var out := AddComponents(next, inst, remote, dir, cs[1..]);
      GrowsTransitive(b, next, out);
      ComponentKeysCons(b.system, b.user, inst, remote, dir, cs);
      AddedRemoteResource(b, inst, remote, dir, cs[0]);
      AddComponentsData(b, inst, remote, dir, cs, AddedKey(b.system, b.user, RemoteResource(inst, remote, dir, cs[0])),
                        next, out);
      UnionChain(b.resources.entries.Keys, {AddedKey(b.system, b.user, RemoteResource(inst, remote, dir, cs[0]))},
                 ComponentKeys(b.system, b.user, inst, remote, dir, cs[1..]),
                 next.resources.entries.Keys, out.resources.entries.Keys,
                 ComponentKeys(b.system, b.user, inst, remote, dir, cs));
      out
  }

  /** Adding the resource a remote builds from one component stores that
      component under its key, with the installation's scope and the
      remote's icon directory, and keeps every other entry's data. */
  lemma AddedRemoteResource(b: Backend, inst: Installation, remote: string, dir: string, c: Component)
    requires b.Valid()
    ensures var key := AddedKey(b.system, b.user, RemoteResource(inst, remote, dir, c));
            var next := AddResource(b, RemoteResource(inst, remote, dir, c));
            && KeepsDataExcept(b.resources, next.resources, {key})
            && key in next.resources.entries && next.resources.entries[key].component == c
            && next.resources.entries[key].scope == ScopeOf(inst) && next.resources.entries[key].iconPath == dir
  {
    var first := RemoteResource(inst, remote, dir, c);
    var key := AddedKey(b.system, b.user, first);
    var next := AddResource(b, first);
    assert PreparedFrom(b, first, next.resources.entries[key]);
  }

  /** The data part of AddComponents' contract, from the first component's
      insertion and the contract of the recursive call. */
  lemma AddComponentsData(b: Backend, inst: Installation, remote: string, dir: string, cs: seq<Component>,
                          key: string, next: Backend, out: Backend)
    requires |cs| > 0
    requires ComponentKeys(b.system, b.user, inst, remote, dir, cs)
             == {key} + ComponentKeys(b.system, b.user, inst, remote, dir, cs[1..])
    requires KeepsDataExcept(b.resources, next.resources, {key})
    requires key in next.resources.entries && next.resources.entries[key].component == cs[0]
             && next.resources.entries[key].scope == ScopeOf(inst) && next.resources.entries[key].iconPath == dir
    requires KeepsDataExcept(next.resources, out.resources, ComponentKeys(b.system, b.user, inst, remote, dir, cs[1..]))
    requires forall k :: k in ComponentKeys(b.system, b.user, inst, remote, dir, cs[1..]) ==>
               k in out.resources.entries && out.resources.entries[k].component in cs[1..]
               && out.resources.entries[k].scope == ScopeOf(inst) && out.resources.entries[k].iconPath == dir
    ensures KeepsDataExcept(b.resources, out.resources, ComponentKeys(b.system, b.user, inst, remote, dir, cs))
    ensures forall k :: k in ComponentKeys(b.system, b.user, inst, remote, dir, cs) ==>
              k in out.resources.entries && out.resources.entries[k].component in cs
              && out.resources.entries[k].scope == ScopeOf(inst) && out.resources.entries[k].iconPath == dir
  {
    forall k | k in ComponentKeys(b.system, b.user, inst, remote, dir, cs)
      ensures k in out.resources.entries && out.resources.entries[k].component in cs
              && out.resources.entries[k].scope == ScopeOf(inst) && out.resources.entries[k].iconPath == dir
    {
      if k in ComponentKeys(b.system, b.user, inst, remote, dir, cs[1..]) {
        assert out.resources.entries[k].component in cs[1..];
      } else {
        assert k == key;
      }
    }
  }

  /** A remote contributes nothing when it is disabled, has no AppStream
      directory, or its AppStream file is missing or does not parse. */
  predicate SkippedRemote(r: Remote)
  {
    r.disabled || r.appstreamDir.None? || r.components.None?
  }

  /** The keys a remote's components are stored under; none when the
      remote is skipped. */
  function RemoteKeys(system: Installation, user: Installation, inst: Installation, r: Remote): set<string>
  {
    if SkippedRemote(r) then {}
    else ComponentKeys(system, user, inst, r.name, r.appstreamDir.value, r.components.value)
  }

  /** A resource built from one of the components a remote that is not
      skipped lists, with the remote's icon directory. */
  predicate FromRemote(r: Remote, e: Resource)
  {
    !SkippedRemote(r) && e.component in r.components.value && e.iconPath == r.appstreamDir.value
  }

  /** One pass of the remote loop of `loadAppsFromAppstreamData`. */
  function LoadRemote(b: Backend, inst: Installation, r: Remote): (out: Backend)
    requires b.Valid()
    ensures out.Valid() && Grows(b, out)
    ensures SkippedRemote(r) ==> out == b
    ensures !SkippedRemote(r) ==>
              out.resources.entries.Keys == b.resources.entries.Keys
                                            + ComponentKeys(b.system, b.user, inst, r.name, r.appstreamDir.value, r.components.value)
    ensures out.resources.entries.Keys == b.resources.entries.Keys + RemoteKeys(b.system, b.user, inst, r)
    ensures KeepsDataExcept(b.resources, out.resources, RemoteKeys(b.system, b.user, inst, r))
    ensures forall k :: k in RemoteKeys(b.system, b.user, inst, r) ==>
              k in out.resources.entries && FromRemote(r, out.resources.entries[k])
              && out.resources.entries[k].scope == ScopeOf(inst)
  {
    if SkippedRemote(r) then b
    else AddComponents(b, inst, r.name, r.appstreamDir.value, r.components.value)
  }

  /** The keys all remotes of `rs` contribute. */
  function RemotesKeys(system: Installation, user: Installation, inst: Installation, rs: seq<Remote>): set<string>
  {
    set i, k | 0 <= i < |rs| && k in RemoteKeys(system, user, inst, rs[i]) :: k
  }

  lemma RemotesKeysCons(system: Installation, user: Installation, inst: Installation, rs: seq<Remote>)
    requires |rs| > 0
    ensures RemotesKeys(system, user, inst, rs)
            == RemoteKeys(system, user, inst, rs[0]) + RemotesKeys(system, user, inst, rs[1..])
  {
    forall k | k in RemotesKeys(system, user, inst, rs)
      ensures k in RemoteKeys(system, user, inst, rs[0]) + RemotesKeys(system, user, inst, rs[1..])
    {
      var i :| 0 <= i < |rs| && k in RemoteKeys(system, user, inst, rs[i]);
      if i > 0 {
        assert rs[1..][i - 1] == rs[i];
      }
    }
    forall k | k in RemotesKeys(system, user, inst, rs[1..])
      ensures k in RemotesKeys(system, user, inst, rs)
    {
      var i :| 0 <= i < |rs[1..]| && k in RemoteKeys(system, user, inst, rs[1..][i]);
      assert rs[i + 1] == rs[1..][i];
    }
  }

  /** The remote loop: the table gains exactly the keys of the components
      of every remote that is not skipped, each holding a resource built
      from one of those remotes, and every other entry keeps its data. */
  function LoadRemotes(b: Backend, inst: Installation, rs: seq<Remote>): (out: Backend)
    requires b.Valid()
    ensures out.Valid() && Grows(b, out)
    ensures out.resources.entries.Keys == b.resources.entries.Keys + RemotesKeys(b.system, b.user, inst, rs)
    ensures KeepsDataExcept(b.resources, out.resources, RemotesKeys(b.system, b.user, inst, rs))
    ensures forall k :: k in RemotesKeys(b.system, b.user, inst, rs) ==>
              k in out.resources.entries && out.resources.entries[k].scope == ScopeOf(inst)
              && exists r :: r in rs && FromRemote(r, out.resources.entries[k])
    decreases |rs|
  {
    if |rs| == 0 then b
    else
      var next := LoadRemote(b, inst, rs[0]);
      var out := LoadRemotes(next, inst, rs[1..]);
      GrowsTransitive(b, next, out);
      LoadRemotesData(b, inst, rs, next, out);
      RemotesKeysCons(b.system, b.user, inst, rs);
      UnionChain(b.resources.entries.Keys, RemoteKeys(b.system, b.user, inst, rs[0]),
                 RemotesKeys(b.system, b.user, inst, rs[1..]), next.resources.entries.Keys,
                 out.resources.entries.Keys, RemotesKeys(b.system, b.user, inst, rs));
      out
  }

  /** The data part of LoadRemotes' contract, from the first remote's pass
      and the contract of the recursive call. */
  lemma LoadRemotesData(b: Backend, inst: Installation, rs: seq<Remote>, next: Backend, out: Backend)
    requires |rs| > 0
    requires KeepsDataExcept(b.resources, next.resources, RemoteKeys(b.system, b.user, inst, rs[0]))
    requires forall k :: k in RemoteKeys(b.system, b.user, inst, rs[0]) ==>
               k in next.resources.entries && FromRemote(rs[0], next.resources.entries[k])
               && next.resources.entries[k].scope == ScopeOf(inst)
    requires KeepsDataExcept(next.resources, out.resources, RemotesKeys(b.system, b.user, inst, rs[1..]))
    requires forall k :: k in RemotesKeys(b.system, b.user, inst, rs[1..]) ==>
               k in out.resources.entries && out.resources.entries[k].scope == ScopeOf(inst)
               && exists r :: r in rs[1..] && FromRemote(r, out.resources.entries[k])
    ensures KeepsDataExcept(b.resources, out.resources, RemotesKeys(b.system, b.user, inst, rs))
    ensures forall k :: k in RemotesKeys(b.system, b.user, inst, rs) ==>
              k in out.resources.entries && out.resources.entries[k].scope == ScopeOf(inst)
              && exists r :: r in rs && FromRemote(r, out.resources.entries[k])
  {
    RemotesKeysCons(b.system, b.user, inst, rs);
    forall k | k in RemotesKeys(b.system, b.user, inst, rs)
      ensures k in out.resources.entries && out.resources.entries[k].scope == ScopeOf(inst)
              && exists r :: r in rs && FromRemote(r, out.resources.entries[k])
    {
      if k in RemotesKeys(b.system, b.user, inst, rs[1..]) {
        var r :| r in rs[1..] && FromRemote(r, out.resources.entries[k]);
        assert r in rs;
      } else {
        assert FromRemote(rs[0], out.resources.entries[k]);
      }
    }
  }

  lemma LoadRemotesCons(b: Backend, inst: Installation, rs: seq<Remote>)
    requires b.Valid() && |rs| > 0
    ensures LoadRemotes(b, inst, rs) == LoadRemotes(LoadRemote(b, inst, rs[0]), inst, rs[1..])
  {
  }

  /** A remote that fails to load leaves the result exactly as if it were
      not configured: the other remotes' resources all still arrive. */
  lemma {:induction false} FailingRemoteIsolated(b: Backend, inst: Installation, before: seq<Remote>,
                                                  bad: Remote, after: seq<Remote>)
    requires b.Valid() && SkippedRemote(bad)
    ensures LoadRemotes(b, inst, before + [bad] + after) == LoadRemotes(b, inst, before + after)
    decreases |before|
  {
    var xs := before + [bad] + after;
    var ys := before + after;
    if |before| == 0 {
      assert xs == [bad] + after && ys == after;
      SkippedRemoteFirst(b, inst, bad, after);
    } else {
      var next := LoadRemote(b, inst, before[0]);
      FailingRemoteIsolated(next, inst, before[1..], bad, after);
      SpliceTail(before, bad, after);
      LoadRemotesCons(b, inst, xs);
      LoadRemotesCons(b, inst, ys);
    }
  }

  lemma SkippedRemoteFirst(b: Backend, inst: Installation, bad: Remote, after: seq<Remote>)
    requires b.Valid() && SkippedRemote(bad)
    ensures LoadRemotes(b, inst, [bad] + after) == LoadRemotes(b, inst, after)
  {
    LoadRemotesCons(b, inst, [bad] + after);
    assert ([bad] + after)[1..] == after;
  }

  /** `loadAppsFromAppstreamData`: false, with nothing loaded, when the
      remotes cannot be listed. */
  function LoadAppsFromAppstreamData(b: Backend, inst: Installation): (out: (Backend, bool))
    requires b.Valid()
    ensures out.0.Valid() && Grows(b, out.0)
    ensures out.1 <==> inst.remotes.Some?
    ensures !out.1 ==> out.0 == b
    ensures out.1 ==> out.0.resources.entries.Keys
                      == b.resources.entries.Keys + RemotesKeys(b.system, b.user, inst, inst.remotes.value)
    ensures KeepsDataExcept(b.resources, out.0.resources, AppstreamKeys(b.system, b.user, inst))
    ensures forall k :: k in AppstreamKeys(b.system, b.user, inst) ==>
              k in out.0.resources.entries && out.0.resources.entries[k].scope == ScopeOf(inst)
              && FromAppstream(inst, out.0.resources.entries[k])
  {
    match inst.remotes
    case None => (b, false)
    case Some(rs) => (LoadRemotes(b, inst, rs), true)
  }

  /** The resource built from an installed desktop file: an installed
      application of the installation's scope. */
  function DesktopResource(inst: Installation, c: Component): (r: Resource)
    ensures r.component == c && r.scope == ScopeOf(inst) && r.rtype == DesktopApp && IsInstalled(r)
    ensures r.iconPath == inst.path + "/exports/"
  {
    NewResource(c).(scope := ScopeOf(inst), iconPath := inst.path + "/exports/",
                    rtype := DesktopApp, state := Installed)
  }

  /** Every deployment has a well-formed ref and a non-empty origin free of
      '/'. */
  predicate WellFormedDeployments(inst: Installation)
  {
    forall i :: 0 <= i < |inst.installed| ==>
      WellFormed(inst.installed[i].ref) && inst.installed[i].origin != "" && '/' !in inst.installed[i].origin
  }

  /** The third field of a unique id is the origin. */
  lemma UniqueIdOriginField(scope: Scope, origin: string, t: ResourceType, appId: string, branch: string)
    requires '/' !in origin
    ensures |Split(ComposeId(scope, origin, t, appId, branch), '/')| > 2
            && Split(ComposeId(scope, origin, t, appId, branch), '/')[2] == origin
  {
    var parts := [ScopeString(scope), "flatpak", origin, TypeString(t), appId, branch];
    assert '/' !in ScopeString(scope);
    SplitJoinHead(parts, '/');
    SplitJoinHead(parts[1..], '/');
    SplitJoinHead(parts[2..], '/');
    assert parts[1..][1..] == parts[2..] && parts[2..][1..] == parts[3..];
  }

  /** Nothing in the backend gives a resource built from a desktop file a
      flatpak name, arch, branch or origin, so unless its component carries
      a bundle id no well-formed deployment is ever found for it. */
  lemma {:induction false} DesktopOnlyAppNotDeployed(inst: Installation, c: Component)
    requires c.bundle.None? && WellFormedDeployments(inst)
    ensures GetInstalledRefForApp(inst, ParseMetadataFromAppBundle(DesktopResource(inst, c)).resource).None?
  {
    var res := DesktopResource(inst, c);
    assert ParseMetadataFromAppBundle(res).resource == res;
    forall i | 0 <= i < |inst.installed|
      ensures !ExactRefMatch(res, inst.installed[i]) && !FallbackMatch(inst, res, inst.installed[i])
    {
      var iref := inst.installed[i];
      UniqueIdOriginField(res.scope, res.origin, res.rtype, res.component.id, res.branch);
      UniqueIdOriginField(ScopeOf(inst), iref.origin, TypeOfKind(iref.ref.kind), AppId(iref.ref), iref.ref.branch);
      assert UniqueId(res) != RefUniqueId(inst, iref);
    }
  }

  /** An entry already known from AppStream data that a desktop-file
      resource stands for: its AppStream id is the desktop file's id with
      `.desktop` appended, and the names agree. */
  predicate IsDesktopTwin(known: Resource, found: Resource)
  {
    known.component.id == found.component.id + ".desktop" && known.component.name == found.component.name
  }

  ghost predicate HasTwin(cat: Catalog, found: Resource)
  {
    exists k :: k in cat.entries && IsDesktopTwin(cat.entries[k], found)
  }

  /** Desktop files the reconciliation loop skips. */
  predicate SkippedEntry(e: DesktopEntry)
  {
    e.fileName == "mimeinfo.cache" || e.component.None?
  }

  /** One pass of the loop of `loadInstalledApps`: the first known twin of
      the desktop-file resource takes its scope and installed state;
      without a twin the resource is added. */
  function ReconcileDesktopEntry(b: Backend, inst: Installation, e: DesktopEntry): (out: Backend)
    requires b.Valid()
    ensures out.Valid() && Grows(b, out)
    ensures |out.resources.order| <= |b.resources.order| + 1
    ensures SkippedEntry(e) ==> out == b
    ensures !SkippedEntry(e) && HasTwin(b.resources, DesktopResource(inst, e.component.value)) ==>
              out.resources.order == b.resources.order
              && out.resources.entries.Keys == b.resources.entries.Keys
              && exists k :: k in b.resources.entries
                             && IsDesktopTwin(b.resources.entries[k], DesktopResource(inst, e.component.value))
                             && out.resources.entries == b.resources.entries[k :=
                                  b.resources.entries[k].(scope := ScopeOf(inst), state := Installed)]
    ensures !SkippedEntry(e) && !HasTwin(b.resources, DesktopResource(inst, e.component.value)) ==>
              AddedUnder(b, out, DesktopResource(inst, e.component.value),
                         AddedKey(b.system, b.user, DesktopResource(inst, e.component.value)))
  {
    if SkippedEntry(e) then b
    else
      var found := DesktopResource(inst, e.component.value);
      match FindTwin(b.resources, found)
      case Some(k) => AdoptTwin(b, k, found)
      case None => AddResource(b, found)
  }

  /** The first key, in the table's enumeration order, whose entry is a
      twin of `found`; None exactly when the table holds no twin. */
  function FindTwin(cat: Catalog, found: Resource): (k: Option<string>)
    requires cat.Valid()
    ensures k.Some? ==> k.value in cat.entries && IsDesktopTwin(cat.entries[k.value], found)
    ensures k.Some? ==> exists i :: 0 <= i < |cat.order| && cat.order[i] == k.value
                                    && forall j :: 0 <= j < i ==> !IsDesktopTwin(cat.entries[cat.order[j]], found)
    ensures k.None? <==> !HasTwin(cat, found)
  {
    match FirstWhere(cat.order, (k: string) => k in cat.entries && IsDesktopTwin(cat.entries[k], found))
    case Some(i) =>
      assert cat.order[i] in cat.entries;
      Some(cat.order[i])
    case None =>
      assert !HasTwin(cat, found) by {
        forall k | k in cat.entries
          ensures !IsDesktopTwin(cat.entries[k], found)
        {
          var j :| 0 <= j < |cat.order| && cat.order[j] == k;
        }
      }
      None
  }

  /** The known twin under `k` takes the desktop-file resource's scope and
      state; nothing else changes. */
  function AdoptTwin(b: Backend, k: string, found: Resource): (out: Backend)
    requires b.Valid() && k in b.resources.entries
    ensures out.Valid() && Grows(b, out)
    ensures out.resources.order == b.resources.order
    ensures out.resources.entries.Keys == b.resources.entries.Keys
    ensures out.resources.entries
            == b.resources.entries[k := b.resources.entries[k].(scope := found.scope, state := found.state)]
  {
    var out := b.(resources := b.resources.Put(k, b.resources.entries[k].(scope := found.scope, state := found.state)));
    assert out.resources.order == b.resources.order;
    out
  }

  /** So an application known only from its desktop file is stored as not
      installed, although its desktop file is exported by a deployment. */
  lemma DesktopOnlyAppStoredNotInstalled(b: Backend, inst: Installation, e: DesktopEntry)
    requires b.Valid() && (inst == b.system || inst == b.user) && WellFormedDeployments(inst)
    requires !SkippedEntry(e) && e.component.value.bundle.None?
    requires !HasTwin(b.resources, DesktopResource(inst, e.component.value))
    ensures var key := AddedKey(b.system, b.user, DesktopResource(inst, e.component.value));
            var out := ReconcileDesktopEntry(b, inst, e);
            key in out.resources.entries && !IsInstalled(out.resources.entries[key])
  {
    var found := DesktopResource(inst, e.component.value);
    DesktopOnlyAppNotDeployed(inst, e.component.value);
    assert FlatpakInstallationForAppScope(b, found.scope) == inst;
  }

  /** `known` is the twin of a desktop file of `es` that is not skipped. */
  ghost predicate TwinOfFile(inst: Installation, es: seq<DesktopEntry>, known: Resource)
  {
    exists i :: 0 <= i < |es| && !SkippedEntry(es[i]) && IsDesktopTwin(known, DesktopResource(inst, es[i].component.value))
  }

  /** What reconciling the desktop files `es` may do to an entry under a
      key none of them adds: AppStream data, type and icon path stay, and
      the scope only changes, to the installation's, for a twin of one of
      the files. */
  ghost predicate ReconciledEntry(inst: Installation, es: seq<DesktopEntry>, before: Resource, after: Resource)
  {
    && after.component == before.component && after.rtype == before.rtype && after.iconPath == before.iconPath
    && (after.scope == before.scope || (after.scope == ScopeOf(inst) && TwinOfFile(inst, es, before)))
  }

  /** One desktop file leaves every entry under another key reconciled. */
  lemma ReconcileData(b: Backend, inst: Installation, e: DesktopEntry, k: string)
    requires b.Valid() && k in b.resources.entries
    requires !SkippedEntry(e) ==> k != FileKey(b.system, b.user, inst, e)
    ensures k in ReconcileDesktopEntry(b, inst, e).resources.entries
    ensures ReconciledEntry(inst, [e], b.resources.entries[k], ReconcileDesktopEntry(b, inst, e).resources.entries[k])
  {
    if !SkippedEntry(e) {
      match FindTwin(b.resources, DesktopResource(inst, e.component.value))
      case Some(t) => AdoptedData(b, inst, e, t, k);
      case None => AddedData(b, inst, e, k);
    }
  }

  /** ReconcileData when the file meets a twin under `t`. */
  lemma AdoptedData(b: Backend, inst: Installation, e: DesktopEntry, t: string, k: string)
    requires b.Valid() && k in b.resources.entries && !SkippedEntry(e)
    requires FindTwin(b.resources, DesktopResource(inst, e.component.value)) == Some(t)
    ensures k in ReconcileDesktopEntry(b, inst, e).resources.entries
    ensures ReconciledEntry(inst, [e], b.resources.entries[k], ReconcileDesktopEntry(b, inst, e).resources.entries[k])
  {
    var out := AdoptTwin(b, t, DesktopResource(inst, e.component.value));
    assert out == ReconcileDesktopEntry(b, inst, e);
    if k == t {
      assert TwinOfFile(inst, [e], b.resources.entries[k]) by {
        assert [e][0] == e;
      }
    }
  }

  /** ReconcileData when the file meets no twin and is added under its own
      key, which is not `k`. */
  lemma AddedData(b: Backend, inst: Installation, e: DesktopEntry, k: string)
    requires b.Valid() && k in b.resources.entries && !SkippedEntry(e)
    requires k != FileKey(b.system, b.user, inst, e)
    requires FindTwin(b.resources, DesktopResource(inst, e.component.value)).None?
    ensures k in ReconcileDesktopEntry(b, inst, e).resources.entries
    ensures ReconciledEntry(inst, [e], b.resources.entries[k], ReconcileDesktopEntry(b, inst, e).resources.entries[k])
  {
    var out := AddResource(b, DesktopResource(inst, e.component.value));
    assert out == ReconcileDesktopEntry(b, inst, e);
    assert SameData(b.resources.entries[k], out.resources.entries[k]);
  }

  function LoadDesktopEntries(b: Backend, inst: Installation, es: seq<DesktopEntry>): (out: Backend)
    requires b.Valid()
    ensures out.Valid() && Grows(b, out)
    ensures |out.resources.order| <= |b.resources.order| + |es|
    ensures forall k :: k in b.resources.entries && k !in DesktopCandidateKeys(b.system, b.user, inst, es) ==>
              k in out.resources.entries && ReconciledEntry(inst, es, b.resources.entries[k], out.resources.entries[k])
    decreases |es|
  {
    if |es| == 0 then b
    else
      var next := ReconcileDesktopEntry(b, inst, es[0]);
      var out := LoadDesktopEntries(next, inst, es[1..]);
      GrowsTransitive(b, next, out);
      LoadDesktopData(b, inst, es, next, out);
      out
  }

  /** The frame part of LoadDesktopEntries' contract, from the first file's
      reconciliation and the contract of the recursive call. */
  lemma LoadDesktopData(b: Backend, inst: Installation, es: seq<DesktopEntry>, next: Backend, out: Backend)
    requires b.Valid() && |es| > 0
    requires next == ReconcileDesktopEntry(b, inst, es[0])
    requires forall k :: k in next.resources.entries && k !in DesktopCandidateKeys(b.system, b.user, inst, es[1..]) ==>
               k in out.resources.entries && ReconciledEntry(inst, es[1..], next.resources.entries[k], out.resources.entries[k])
    ensures forall k :: k in b.resources.entries && k !in DesktopCandidateKeys(b.system, b.user, inst, es) ==>
              k in out.resources.entries && ReconciledEntry(inst, es, b.resources.entries[k], out.resources.entries[k])
  {
    DesktopCandidateKeysCons(b.system, b.user, inst, es);
    forall k | k in b.resources.entries && k !in DesktopCandidateKeys(b.system, b.user, inst, es)
      ensures k in out.resources.entries && ReconciledEntry(inst, es, b.resources.entries[k], out.resources.entries[k])
    {
      ReconcileData(b, inst, es[0], k);
      ReconciledTrans(inst, es, b.resources.entries[k], next.resources.entries[k], out.resources.entries[k]);
    }
  }

  /** Reconciling the first file and then the rest is reconciling them all. */
  lemma ReconciledTrans(inst: Installation, es: seq<DesktopEntry>, before: Resource, mid: Resource, after: Resource)
    requires |es| > 0
    requires ReconciledEntry(inst, [es[0]], before, mid) && ReconciledEntry(inst, es[1..], mid, after)
    ensures ReconciledEntry(inst, es, before, after)
  {
    if after.scope != before.scope {
      if mid.scope != before.scope {
        var i :| 0 <= i < |[es[0]]| && !SkippedEntry([es[0]][i])
                 && IsDesktopTwin(before, DesktopResource(inst, [es[0]][i].component.value));
        assert [es[0]][i] == es[0];
      } else {
        var j :| 0 <= j < |es[1..]| && !SkippedEntry(es[1..][j])
                 && IsDesktopTwin(mid, DesktopResource(inst, es[1..][j].component.value));
        assert es[1..][j] == es[j + 1];
      }
    }
  }

  /** A later file's key is a candidate of the whole list, and so is the
      first file's when it is not skipped. */
  lemma DesktopCandidateKeysCons(system: Installation, user: Installation, inst: Installation, es: seq<DesktopEntry>)
    requires |es| > 0
    ensures DesktopCandidateKeys(system, user, inst, es[1..]) <= DesktopCandidateKeys(system, user, inst, es)
    ensures !SkippedEntry(es[0]) ==> FileKey(system, user, inst, es[0]) in DesktopCandidateKeys(system, user, inst, es)
  {
    assert es[0] in es;
    assert forall e :: e in es[1..] ==> e in es;
  }

  lemma LoadDesktopEntriesCons(b: Backend, inst: Installation, es: seq<DesktopEntry>)
    requires b.Valid() && |es| > 0
    ensures LoadDesktopEntries(b, inst, es) == LoadDesktopEntries(ReconcileDesktopEntry(b, inst, es[0]), inst, es[1..])
  {
  }

  /** `mimeinfo.cache` and unparsable desktop files change nothing: the
      result is as if they were not in the directory. */
  lemma {:induction false} SkippedEntryIsolated(b: Backend, inst: Installation, before: seq<DesktopEntry>,
                                                 skipped: DesktopEntry, after: seq<DesktopEntry>)
    requires b.Valid() && SkippedEntry(skipped)
    ensures LoadDesktopEntries(b, inst, before + [skipped] + after) == LoadDesktopEntries(b, inst, before + after)
    decreases |before|
  {
    var xs := before + [skipped] + after;
    var ys := before + after;
    if |before| == 0 {
      assert xs == [skipped] + after && ys == after;
      SkippedEntryFirst(b, inst, skipped, after);
    } else {
      var next := ReconcileDesktopEntry(b, inst, before[0]);
      SkippedEntryIsolated(next, inst, before[1..], skipped, after);
      SpliceTail(before, skipped, after);
      LoadDesktopEntriesCons(b, inst, xs);
      LoadDesktopEntriesCons(b, inst, ys);
    }
  }

  lemma SkippedEntryFirst(b: Backend, inst: Installation, skipped: DesktopEntry, after: seq<DesktopEntry>)
    requires b.Valid() && SkippedEntry(skipped)
    ensures LoadDesktopEntries(b, inst, [skipped] + after) == LoadDesktopEntries(b, inst, after)
  {
    LoadDesktopEntriesCons(b, inst, [skipped] + after);
    assert ([skipped] + after)[1..] == after;
  }

  /** The key the resource of a desktop file that is not skipped would be
      stored under. */
  function FileKey(system: Installation, user: Installation, inst: Installation, e: DesktopEntry): string
    requires !SkippedEntry(e)
  {
    AddedKey(system, user, DesktopResource(inst, e.component.value))
  }

  /** The keys the desktop files of `es` can add: the key of the resource
      of every file that is not skipped. */
  function DesktopCandidateKeys(system: Installation, user: Installation, inst: Installation,
                                es: seq<DesktopEntry>): set<string>
  {
    set e | e in es && !SkippedEntry(e) :: FileKey(system, user, inst, e)
  }

  /** The `i`th file of `es` is not skipped and, at its turn, meets no twin
      in the table. */
  ghost predicate AddsKey(b: Backend, inst: Installation, es: seq<DesktopEntry>, i: int)
    requires b.Valid()
  {
    && 0 <= i < |es| && !SkippedEntry(es[i])
    && !HasTwin(LoadDesktopEntries(b, inst, es[..i]).resources, DesktopResource(inst, es[i].component.value))
  }

  /** The keys the desktop files of `es` do add: a file that is not skipped
      adds its resource's key exactly when, at its turn, the table holds no
      twin of that resource. */
  ghost function DesktopKeys(b: Backend, inst: Installation, es: seq<DesktopEntry>): set<string>
    requires b.Valid()
  {
    set i | 0 <= i < |es| && AddsKey(b, inst, es, i) :: FileKey(b.system, b.user, inst, es[i])
  }

  /** The table a later file meets is the one the first file leaves,
      carried through the files in between. */
  lemma LoadDesktopPrefixCons(b: Backend, inst: Installation, es: seq<DesktopEntry>, i: nat)
    requires b.Valid() && 1 <= i <= |es|
    ensures LoadDesktopEntries(b, inst, es[..i])
            == LoadDesktopEntries(ReconcileDesktopEntry(b, inst, es[0]), inst, es[1..][..i - 1])
  {
    LoadDesktopEntriesCons(b, inst, es[..i]);
    assert es[..i][0] == es[0] && es[..i][1..] == es[1..][..i - 1];
  }

  /** The key one desktop file adds to the table `b` holds: its resource's
      key when it is not skipped and meets no twin, otherwise none. */
  ghost function EntryKeys(b: Backend, inst: Installation, e: DesktopEntry): set<string>
  {
    if SkippedEntry(e) || HasTwin(b.resources, DesktopResource(inst, e.component.value)) then {}
    else {FileKey(b.system, b.user, inst, e)}
  }

  lemma ReconcileKeys(b: Backend, inst: Installation, e: DesktopEntry)
    requires b.Valid()
    ensures ReconcileDesktopEntry(b, inst, e).resources.entries.Keys == b.resources.entries.Keys + EntryKeys(b, inst, e)
  {
  }

  /** The keys the files add: those of the first file, then those the rest
      add to the table the first leaves. */
  lemma DesktopKeysCons(b: Backend, inst: Installation, es: seq<DesktopEntry>)
    requires b.Valid() && |es| > 0
    ensures DesktopKeys(b, inst, es)
            == EntryKeys(b, inst, es[0]) + DesktopKeys(ReconcileDesktopEntry(b, inst, es[0]), inst, es[1..])
  {
    DesktopKeysConsForward(b, inst, es);
    DesktopKeysConsBackward(b, inst, es);
  }

  lemma DesktopKeysConsForward(b: Backend, inst: Installation, es: seq<DesktopEntry>)
    requires b.Valid() && |es| > 0
    ensures DesktopKeys(b, inst, es)
            <= EntryKeys(b, inst, es[0]) + DesktopKeys(ReconcileDesktopEntry(b, inst, es[0]), inst, es[1..])
  {
    var next := ReconcileDesktopEntry(b, inst, es[0]);
    forall k | k in DesktopKeys(b, inst, es)
      ensures k in EntryKeys(b, inst, es[0]) + DesktopKeys(next, inst, es[1..])
    {
      FileKeySource(b, inst, es, k);
    }
  }

  lemma FileKeySource(b: Backend, inst: Installation, es: seq<DesktopEntry>, k: string)
    requires b.Valid() && |es| > 0 && k in DesktopKeys(b, inst, es)
    ensures k in EntryKeys(b, inst, es[0]) + DesktopKeys(ReconcileDesktopEntry(b, inst, es[0]), inst, es[1..])
  {
    var i :| 0 <= i < |es| && AddsKey(b, inst, es, i) && k == FileKey(b.system, b.user, inst, es[i]);
    if i == 0 {
      assert es[..0] == [];
    } else {
      var next := ReconcileDesktopEntry(b, inst, es[0]);
      LoadDesktopPrefixCons(b, inst, es, i);
      assert es[1..][i - 1] == es[i];
      assert AddsKey(next, inst, es[1..], i - 1);
    }
  }

  lemma DesktopKeysConsBackward(b: Backend, inst: Installation, es: seq<DesktopEntry>)
    requires b.Valid() && |es| > 0
    ensures EntryKeys(b, inst, es[0]) + DesktopKeys(ReconcileDesktopEntry(b, inst, es[0]), inst, es[1..])
            <= DesktopKeys(b, inst, es)
  {
    var next := ReconcileDesktopEntry(b, inst, es[0]);
    FirstFileKeys(b, inst, es);
    forall k | k in DesktopKeys(next, inst, es[1..])
      ensures k in DesktopKeys(b, inst, es)
    {
      LaterFilesKey(b, inst, es, k);
    }
  }

  lemma LaterFilesKey(b: Backend, inst: Installation, es: seq<DesktopEntry>, k: string)
    requires b.Valid() && |es| > 0 && k in DesktopKeys(ReconcileDesktopEntry(b, inst, es[0]), inst, es[1..])
    ensures k in DesktopKeys(b, inst, es)
  {
    var next := ReconcileDesktopEntry(b, inst, es[0]);
    var rest := es[1..];
    DesktopKeysMember(next, inst, rest, k);
    var j :| 0 <= j < |rest| && AddsKey(next, inst, rest, j) && k == FileKey(next.system, next.user, inst, rest[j]);
    LaterFileKey(b, inst, es, j);
  }

  lemma DesktopKeysMember(b: Backend, inst: Installation, es: seq<DesktopEntry>, k: string)
    requires b.Valid() && k in DesktopKeys(b, inst, es)
    ensures exists i :: 0 <= i < |es| && AddsKey(b, inst, es, i) && k == FileKey(b.system, b.user, inst, es[i])
  {
  }

  lemma FirstFileKeys(b: Backend, inst: Installation, es: seq<DesktopEntry>)
    requires b.Valid() && |es| > 0
    ensures EntryKeys(b, inst, es[0]) <= DesktopKeys(b, inst, es)
  {
    assert LoadDesktopEntries(b, inst, es[..0]) == b by {
      assert es[..0] == [];
    }
  }

  lemma LaterFileKey(b: Backend, inst: Installation, es: seq<DesktopEntry>, i: nat)
    requires b.Valid() && i + 1 < |es| && AddsKey(ReconcileDesktopEntry(b, inst, es[0]), inst, es[1..], i)
    ensures !SkippedEntry(es[i + 1])
    ensures FileKey(ReconcileDesktopEntry(b, inst, es[0]).system, ReconcileDesktopEntry(b, inst, es[0]).user, inst, es[1..][i])
            in DesktopKeys(b, inst, es)
  {
    LoadDesktopPrefixCons(b, inst, es, i + 1);
    assert es[1..][i] == es[i + 1];
    assert AddsKey(b, inst, es, i + 1);
  }

  /** The reconciliation loop adds exactly the keys of the files that meet
      no twin. */
  lemma {:induction false} LoadDesktopEntriesKeys(b: Backend, inst: Installation, es: seq<DesktopEntry>)
    requires b.Valid()
    ensures LoadDesktopEntries(b, inst, es).resources.entries.Keys
            == b.resources.entries.Keys + DesktopKeys(b, inst, es)
    decreases |es|
  {
    if |es| == 0 {
      assert DesktopKeys(b, inst, es) == {};
    } else {
      var next := ReconcileDesktopEntry(b, inst, es[0]);
      var rest := LoadDesktopEntries(next, inst, es[1..]);
      LoadDesktopEntriesKeys(next, inst, es[1..]);
      LoadDesktopEntriesCons(b, inst, es);
      DesktopKeysCons(b, inst, es);
      ReconcileKeys(b, inst, es[0]);
      UnionChain(b.resources.entries.Keys, EntryKeys(b, inst, es[0]), DesktopKeys(next, inst, es[1..]),
                 next.resources.entries.Keys, rest.resources.entries.Keys, DesktopKeys(b, inst, es));
    }
  }

  lemma UnionChain(keys: set<string>, first: set<string>, later: set<string>,
                   mid: set<string>, last: set<string>, added: set<string>)
    requires mid == keys + first && last == mid + later && added == first + later
    ensures last == keys + added
  {
  }

  /** Only files that are not skipped add keys. */
  lemma DesktopKeysAreCandidates(b: Backend, inst: Installation, es: seq<DesktopEntry>)
    requires b.Valid()
    ensures DesktopKeys(b, inst, es) <= DesktopCandidateKeys(b.system, b.user, inst, es)
  {
  }

  /** Every desktop file that is not skipped ends with its own key in the
      table, unless at its turn the table already held a twin of it. */
  lemma DesktopFileLands(b: Backend, inst: Installation, es: seq<DesktopEntry>, i: nat)
    requires b.Valid() && i < |es| && !SkippedEntry(es[i])
    ensures HasTwin(LoadDesktopEntries(b, inst, es[..i]).resources, DesktopResource(inst, es[i].component.value))
            || AddedKey(b.system, b.user, DesktopResource(inst, es[i].component.value))
                 in LoadDesktopEntries(b, inst, es).resources.entries
  {
    LoadDesktopEntriesKeys(b, inst, es);
    if !HasTwin(LoadDesktopEntries(b, inst, es[..i]).resources, DesktopResource(inst, es[i].component.value)) {
      assert AddsKey(b, inst, es, i);
    }
  }

  /** What `loadInstalledApps` may do to an entry under a key the
      installation's desktop files cannot add: nothing without the
      directory, otherwise what ReconciledEntry allows. */
  ghost predicate ReconciledBy(inst: Installation, before: Resource, after: Resource)
  {
    if inst.desktopFiles.Some? then ReconciledEntry(inst, inst.desktopFiles.value, before, after) else after == before
  }

  /** `loadInstalledApps`: reconciles every file of
      `exports/share/applications/`; a missing directory changes nothing.
      The table gains exactly the keys of the files that meet no twin. */
  function LoadInstalledApps(b: Backend, inst: Installation): (out: Backend)
    requires b.Valid()
    ensures out.Valid() && Grows(b, out)
    ensures inst.desktopFiles.None? ==> out == b
    ensures inst.desktopFiles.Some? ==> |out.resources.order| <= |b.resources.order| + |inst.desktopFiles.value|
    ensures inst.desktopFiles.Some? ==>
              out.resources.entries.Keys == b.resources.entries.Keys + DesktopKeys(b, inst, inst.desktopFiles.value)
    ensures out.resources.entries.Keys <= b.resources.entries.Keys + InstalledCandidateKeys(b.system, b.user, inst)
    ensures forall k :: k in b.resources.entries && k !in InstalledCandidateKeys(b.system, b.user, inst) ==>
              k in out.resources.entries && ReconciledBy(inst, b.resources.entries[k], out.resources.entries[k])
  {
    match inst.desktopFiles
    case None => b
    case Some(es) =>
      LoadDesktopEntriesKeys(b, inst, es);
      DesktopKeysAreCandidates(b, inst, es);
      LoadDesktopEntries(b, inst, es)
  }

  /** A resource built from the AppStream data of one of the
      installation's remotes. */
  ghost predicate FromAppstream(inst: Installation, e: Resource)
  {
    inst.remotes.Some? && exists r :: r in inst.remotes.value && FromRemote(r, e)
  }

  /** The keys the AppStream data of an installation's remotes adds. */
  function AppstreamKeys(system: Installation, user: Installation, inst: Installation): set<string>
  {
    if inst.remotes.Some? then RemotesKeys(system, user, inst, inst.remotes.value) else {}
  }

  /** The keys an installation's desktop files can add. */
  function InstalledCandidateKeys(system: Installation, user: Installation, inst: Installation): set<string>
  {
    if inst.desktopFiles.Some? then DesktopCandidateKeys(system, user, inst, inst.desktopFiles.value) else {}
  }

  /** `known` is the twin of one of the installation's desktop files. */
  ghost predicate TwinOfInstalled(inst: Installation, known: Resource)
  {
    inst.desktopFiles.Some? && TwinOfFile(inst, inst.desktopFiles.value, known)
  }

  /** `reloadPackageList`: raises `fetching`, loads AppStream data of the
      system then the user installation, reconciles their installed apps
      in the same order, and lowers `fetching` again. */
  method ReloadPackageList(b: Backend) returns (out: Backend)
    requires b.Valid()
    ensures out.Valid() && !out.fetching
    ensures out.system == b.system && out.user == b.user
    ensures out.fetchingChanges == b.fetchingChanges + (if b.fetching then 1 else 2)
    ensures |b.resources.order| <= |out.resources.order|
    ensures out.resources.order[..|b.resources.order|] == b.resources.order
    ensures var loaded := b.resources.entries.Keys + AppstreamKeys(b.system, b.user, b.system)
                          + AppstreamKeys(b.system, b.user, b.user);
            loaded <= out.resources.entries.Keys
            && out.resources.entries.Keys <= loaded + InstalledCandidateKeys(b.system, b.user, b.system)
                                             + InstalledCandidateKeys(b.system, b.user, b.user)
    ensures ReloadKeeps(b, out)
    ensures ReloadStoresAppstream(b.system, b.user, out)
  {
    var b1 := SetFetching(b, true);
    var b2 := LoadAppsFromAppstreamData(b1, b1.system).0;
    var b3 := LoadAppsFromAppstreamData(b2, b2.user).0;
    var b4 := LoadInstalledApps(b3, b3.system);
    var b5 := LoadInstalledApps(b4, b4.user);
    GrowsTransitive(b1, b2, b3);
    GrowsTransitive(b1, b3, b4);
    GrowsTransitive(b1, b4, b5);
    ReloadData(b, b2, b3, b4, b5);
    out := SetFetching(b5, false);
  }

  /** Every entry `b` held under a key no installation's AppStream data or
      desktop files can add keeps its AppStream data, type and icon path,
      and changes scope only as the twin of an installed desktop file. */
  ghost predicate ReloadKeeps(b: Backend, out: Backend)
  {
    var changed := AppstreamKeys(b.system, b.user, b.system) + AppstreamKeys(b.system, b.user, b.user)
                   + InstalledCandidateKeys(b.system, b.user, b.system) + InstalledCandidateKeys(b.system, b.user, b.user);
    forall k :: k in b.resources.entries && k !in changed ==>
      && k in out.resources.entries
      && out.resources.entries[k].component == b.resources.entries[k].component
      && out.resources.entries[k].rtype == b.resources.entries[k].rtype
      && out.resources.entries[k].iconPath == b.resources.entries[k].iconPath
      && (out.resources.entries[k].scope == b.resources.entries[k].scope
          || TwinOfInstalled(b.system, b.resources.entries[k]) || TwinOfInstalled(b.user, b.resources.entries[k]))
  }

  /** Every key the AppStream data adds and no desktop file can add holds
      a resource built from the AppStream data of one of the installations. */
  ghost predicate ReloadStoresAppstream(system: Installation, user: Installation, out: Backend)
  {
    forall k :: k in AppstreamKeys(system, user, system) + AppstreamKeys(system, user, user)
                && k !in InstalledCandidateKeys(system, user, system) + InstalledCandidateKeys(system, user, user) ==>
      k in out.resources.entries && (FromAppstream(system, out.resources.entries[k]) || FromAppstream(user, out.resources.entries[k]))
  }

  /** The data part of ReloadPackageList's contract, from what its steps
      promise. */
  lemma ReloadData(b: Backend, b2: Backend, b3: Backend, b4: Backend, b5: Backend)
    requires KeepsDataExcept(b.resources, b2.resources, AppstreamKeys(b.system, b.user, b.system))
    requires forall k :: k in AppstreamKeys(b.system, b.user, b.system) ==>
               k in b2.resources.entries && FromAppstream(b.system, b2.resources.entries[k])
    requires KeepsDataExcept(b2.resources, b3.resources, AppstreamKeys(b.system, b.user, b.user))
    requires forall k :: k in AppstreamKeys(b.system, b.user, b.user) ==>
               k in b3.resources.entries && FromAppstream(b.user, b3.resources.entries[k])
    requires forall k :: k in b3.resources.entries && k !in InstalledCandidateKeys(b.system, b.user, b.system) ==>
               k in b4.resources.entries && ReconciledBy(b.system, b3.resources.entries[k], b4.resources.entries[k])
    requires forall k :: k in b4.resources.entries && k !in InstalledCandidateKeys(b.system, b.user, b.user) ==>
               k in b5.resources.entries && ReconciledBy(b.user, b4.resources.entries[k], b5.resources.entries[k])
    ensures ReloadKeeps(b, b5)
    ensures ReloadStoresAppstream(b.system, b.user, b5)
  {
    var changed := AppstreamKeys(b.system, b.user, b.system) + AppstreamKeys(b.system, b.user, b.user)
                   + InstalledCandidateKeys(b.system, b.user, b.system) + InstalledCandidateKeys(b.system, b.user, b.user);
    forall k | k in b.resources.entries && k !in changed
      ensures k in b5.resources.entries
              && b5.resources.entries[k].component == b.resources.entries[k].component
              && b5.resources.entries[k].rtype == b.resources.entries[k].rtype
              && b5.resources.entries[k].iconPath == b.resources.entries[k].iconPath
              && (b5.resources.entries[k].scope == b.resources.entries[k].scope
                  || TwinOfInstalled(b.system, b.resources.entries[k]) || TwinOfInstalled(b.user, b.resources.entries[k]))
    {
      var e0, e3, e4 := b.resources.entries[k], b3.resources.entries[k], b4.resources.entries[k];
      if b.system.desktopFiles.Some? {
        TwinKept(b.system, b.system.desktopFiles.value, e3, e0);
      }
      if b.user.desktopFiles.Some? {
        TwinKept(b.user, b.user.desktopFiles.value, e4, e0);
      }
    }
    forall k | k in AppstreamKeys(b.system, b.user, b.system) + AppstreamKeys(b.system, b.user, b.user)
               && k !in InstalledCandidateKeys(b.system, b.user, b.system) + InstalledCandidateKeys(b.system, b.user, b.user)
      ensures k in b5.resources.entries
              && (FromAppstream(b.system, b5.resources.entries[k]) || FromAppstream(b.user, b5.resources.entries[k]))
    {
      var e3 := b3.resources.entries[k];
      if FromAppstream(b.system, e3) {
        FromAppstreamKept(b.system, e3, b5.resources.entries[k]);
      } else {
        FromAppstreamKept(b.user, e3, b5.resources.entries[k]);
      }
    }
  }

  /** Being the twin of a desktop file depends on the component only. */
  lemma TwinKept(inst: Installation, es: seq<DesktopEntry>, a: Resource, c: Resource)
    requires c.component == a.component
    ensures TwinOfFile(inst, es, a) <==> TwinOfFile(inst, es, c)
  {
    if TwinOfFile(inst, es, a) {
      var i :| 0 <= i < |es| && !SkippedEntry(es[i]) && IsDesktopTwin(a, DesktopResource(inst, es[i].component.value));
      assert IsDesktopTwin(c, DesktopResource(inst, es[i].component.value));
    }
    if TwinOfFile(inst, es, c) {
      var i :| 0 <= i < |es| && !SkippedEntry(es[i]) && IsDesktopTwin(c, DesktopResource(inst, es[i].component.value));
      assert IsDesktopTwin(a, DesktopResource(inst, es[i].component.value));
    }
  }

  /** Being built from AppStream data depends on the component and icon
      path only. */
  lemma FromAppstreamKept(inst: Installation, a: Resource, c: Resource)
    requires FromAppstream(inst, a) && c.component == a.component && c.iconPath == a.iconPath
    ensures FromAppstream(inst, c)
  {
    var r :| r in inst.remotes.value && FromRemote(r, a);
    assert FromRemote(r, c);
  }

  /** The backend over two set-up installations once the package list is
      loaded into an empty table. */
  method LoadedBackend(system: Installation, user: Installation) returns (b: Backend)
    requires !system.isUser && user.isUser
    ensures b.Valid() && !b.fetching && b.fetchingChanges == 2
    ensures b.system == system && b.user == user
    ensures var loaded := AppstreamKeys(system, user, system) + AppstreamKeys(system, user, user);
            loaded <= b.resources.entries.Keys
            && b.resources.entries.Keys <= loaded + InstalledCandidateKeys(system, user, system)
                                           + InstalledCandidateKeys(system, user, user)
    ensures forall k :: k in b.resources.entries
                        && k !in InstalledCandidateKeys(system, user, system) + InstalledCandidateKeys(system, user, user) ==>
              FromAppstream(system, b.resources.entries[k]) || FromAppstream(user, b.resources.entries[k])
  {
    var empty := Backend(system, user, EmptyCatalog(), false, 0);
    assert empty.Valid();
    b := ReloadPackageList(empty);
    LoadedFromAppstream(system, user, b);
  }

  /** In a table loaded from empty, a key no desktop file can add came from
      AppStream data. */
  lemma LoadedFromAppstream(system: Installation, user: Installation, b: Backend)
    requires b.resources.entries.Keys <= {} + AppstreamKeys(system, user, system) + AppstreamKeys(system, user, user)
                                        + InstalledCandidateKeys(system, user, system) + InstalledCandidateKeys(system, user, user)
    requires ReloadStoresAppstream(system, user, b)
    ensures var loaded := AppstreamKeys(system, user, system) + AppstreamKeys(system, user, user);
            b.resources.entries.Keys <= loaded + InstalledCandidateKeys(system, user, system)
                                        + InstalledCandidateKeys(system, user, user)
    ensures forall k :: k in b.resources.entries
                        && k !in InstalledCandidateKeys(system, user, system) + InstalledCandidateKeys(system, user, user) ==>
              FromAppstream(system, b.resources.entries[k]) || FromAppstream(user, b.resources.entries[k])
  {
  }

  /** The constructor: `setupFlatpakInstallations` needs both the system
      and the user installation; only then is the package list loaded. A
      backend whose setup failed is None. */
  method Construct(system: Option<Installation>, user: Option<Installation>) returns (b: Option<Backend>)
    requires system.Some? ==> !system.value.isUser
    requires user.Some? ==> user.value.isUser
    ensures b.Some? <==> system.Some? && user.Some?
    ensures b.Some? ==> b.value.Valid() && !b.value.fetching && b.value.fetchingChanges == 2
    ensures b.Some? ==> b.value.system == system.value && b.value.user == user.value
    ensures b.Some? ==>
              var loaded := AppstreamKeys(system.value, user.value, system.value)
                            + AppstreamKeys(system.value, user.value, user.value);
              loaded <= b.value.resources.entries.Keys
              && b.value.resources.entries.Keys <= loaded + InstalledCandidateKeys(system.value, user.value, system.value)
                                                   + InstalledCandidateKeys(system.value, user.value, user.value)
    ensures b.Some? ==>
              forall k :: k in b.value.resources.entries
                          && k !in InstalledCandidateKeys(system.value, user.value, system.value)
                                   + InstalledCandidateKeys(system.value, user.value, user.value) ==>
                FromAppstream(system.value, b.value.resources.entries[k]) || FromAppstream(user.value, b.value.resources.entries[k])
  {
    if system.None? || user.None? {
      return None;
    }
    var loaded := LoadedBackend(system.value, user.value);
    b := Some(loaded);
  }
}

=== FILE: matching.dfy ===
/** Identifying a resource with a deployed ref: `compareAppFlatpakRef`,
    `getInstalledRefForApp`, and the two operations that copy an installed
    ref's data into a resource, `updateAppInstalledMetadata` and
    `updateAppState`. */
module RefMatching {
  import opened Wrappers
  import opened Seqs
  import opened FlatpakRefs
  import opened Resources
  import opened Installations

  function TypeOfKind(k: RefKind): ResourceType
  {
    match k
    case KindApp => DesktopApp
    case KindRuntime => Runtime
  }

  /** The ref kind `getInstalledRefForApp` asks for given a resource type. */
  function KindOfType(t: ResourceType): RefKind
  {
    match t
    case DesktopApp => KindApp
    case Runtime => KindRuntime
  }

  /** The ref kind the fallback listing asks for given an AppStream kind. */
  function KindOfComponent(k: ComponentKind): RefKind
  {
    match k
    case DesktopAppComponent => KindApp
    case OtherComponent => KindRuntime
  }

  /** The AppStream id a ref corresponds to: applications carry the
      `.desktop` suffix, runtimes their bare name. */
  function AppId(r: Ref): string
  {
    if r.kind == KindApp then r.name + ".desktop" else r.name
  }

  /** The unique id a resource for this installed ref would have. */
  function RefUniqueId(inst: Installation, iref: InstalledRef): string
  {
    ComposeId(ScopeOf(inst), iref.origin, TypeOfKind(iref.ref.kind), AppId(iref.ref), iref.ref.branch)
  }

  /** `compareAppFlatpakRef`: the exact unique id decides first; failing
      that, a resource with known arch and branch must agree on arch,
      branch and `AppId`; a resource without them matches on the name alone,
      with or without the `.desktop` suffix. */
  function CompareAppFlatpakRef(inst: Installation, res: Resource, iref: InstalledRef): (matched: bool)
    ensures UniqueId(res) == RefUniqueId(inst, iref) ==> matched
    ensures UniqueId(res) != RefUniqueId(inst, iref) && (res.arch == "" || res.branch == "") ==>
              (matched <==> res.flatpakName == AppId(iref.ref) || res.flatpakName == iref.ref.name)
    ensures UniqueId(res) != RefUniqueId(inst, iref) && res.arch != "" && res.branch != "" ==>
              (matched <==> res.arch == iref.ref.arch && res.branch == iref.ref.branch
                            && res.flatpakName == AppId(iref.ref))
  {
    if UniqueId(res) == RefUniqueId(inst, iref) then true
    else if res.arch != "" && res.branch != "" then
      res.arch == iref.ref.arch && res.branch == iref.ref.branch && res.flatpakName == AppId(iref.ref)
    else
      res.flatpakName == AppId(iref.ref) || res.flatpakName == iref.ref.name
  }

  /** When arch and branch are known and the ids differ, an application
      whose flatpak name is the bare ref name is never matched, because the
      comparison is made against the name with `.desktop` appended. Both
      `parseMetadataFromAppBundle` and `updateAppInstalledMetadata` store
      the bare name, so for applications only the exact id can match here. */
  lemma KnownArchBranchAppNeedsExactId(inst: Installation, res: Resource, iref: InstalledRef)
    requires iref.ref.kind == KindApp
    requires res.arch != "" && res.branch != ""
    requires res.flatpakName == iref.ref.name
    ensures CompareAppFlatpakRef(inst, res, iref) <==> UniqueId(res) == RefUniqueId(inst, iref)
  {
    assert |AppId(iref.ref)| == |iref.ref.name| + 8;
  }

  /** `flatpak_installation_get_installed_ref(kind, name, arch, branch)`
      finds the deployment with exactly these four fields. */
  predicate ExactRefMatch(res: Resource, iref: InstalledRef)
  {
    iref.ref == Ref(KindOfType(res.rtype), res.flatpakName, res.arch, res.branch)
  }

  /** A ref the fallback scan accepts: it is of the AppStream component's
      kind (`list_installed_refs_by_kind`) and passes the comparison. */
  predicate FallbackMatch(inst: Installation, res: Resource, iref: InstalledRef)
  {
    iref.ref.kind == KindOfComponent(res.component.kind) && CompareAppFlatpakRef(inst, res, iref)
  }

  /** `getInstalledRefForApp`: the exact deployment when there is one,
      otherwise the first listed ref of the component's kind that the
      comparison accepts, otherwise nothing. */
  function GetInstalledRefForApp(inst: Installation, res: Resource): (found: Option<InstalledRef>)
    ensures found.Some? ==> found.value in inst.installed
    ensures found.Some? ==> ExactRefMatch(res, found.value) || FallbackMatch(inst, res, found.value)
    ensures (exists i :: 0 <= i < |inst.installed| && ExactRefMatch(res, inst.installed[i]))
              ==> found.Some? && ExactRefMatch(res, found.value)
    ensures found.None? <==>
              forall i :: 0 <= i < |inst.installed| ==>
                !ExactRefMatch(res, inst.installed[i]) && !FallbackMatch(inst, res, inst.installed[i])
    ensures found.Some? && !ExactRefMatch(res, found.value) ==>
              exists i :: 0 <= i < |inst.installed| && inst.installed[i] == found.value
                          && forall j :: 0 <= j < i ==> !FallbackMatch(inst, res, inst.installed[j])
  {
    match FirstWhere(inst.installed, (x: InstalledRef) => ExactRefMatch(res, x))
    case Some(i) => Some(inst.installed[i])
    case None =>
      match FirstWhere(inst.installed, (x: InstalledRef) => FallbackMatch(inst, res, x))
      case Some(j) => Some(inst.installed[j])
      case None => None
  }

  /** The fields the lookup reads; everything else (state, size, commit,
      runtime, icon path) can change without changing its answer. */
  predicate SameIdentity(a: Resource, b: Resource)
  {
    && a.component == b.component && a.rtype == b.rtype && a.scope == b.scope
    && a.origin == b.origin && a.arch == b.arch && a.branch == b.branch
    && a.flatpakName == b.flatpakName
  }

  lemma LookupReadsIdentityOnly(inst: Installation, a: Resource, b: Resource)
    requires SameIdentity(a, b)
    ensures GetInstalledRefForApp(inst, a) == GetInstalledRefForApp(inst, b)
  {
    FirstWhereAgrees(inst.installed, (x: InstalledRef) => ExactRefMatch(a, x),
                     (x: InstalledRef) => ExactRefMatch(b, x));
    FirstWhereAgrees(inst.installed, (x: InstalledRef) => FallbackMatch(inst, a, x),
                     (x: InstalledRef) => FallbackMatch(inst, b, x));
  }

  /** `updateAppInstalledMetadata`: the resource takes the ref's arch,
      branch, commit, origin, name and installed size and becomes
      installed; its AppStream data, type, scope, icon path and runtime are
      untouched. */
  function UpdateAppInstalledMetadata(iref: InstalledRef, res: Resource): (r: Resource)
    ensures r.arch == iref.ref.arch && r.branch == iref.ref.branch && r.commit == iref.commit
    ensures r.origin == iref.origin && r.flatpakName == iref.ref.name
    ensures r.size == iref.installedSize && IsInstalled(r)
    ensures r.component == res.component && r.rtype == res.rtype && r.scope == res.scope
    ensures r.iconPath == res.iconPath && r.runtime == res.runtime
  {
    res.(arch := iref.ref.arch, branch := iref.ref.branch, commit := iref.commit,
         origin := iref.origin, flatpakName := iref.ref.name,
         size := iref.installedSize, state := Installed)
  }

  /** A resource refreshed from a ref of its own kind is that ref's exact
      deployment from then on. */
  lemma RefreshedResourceIsExactMatch(iref: InstalledRef, res: Resource)
    requires iref.ref.kind == KindOfType(res.rtype)
    ensures ExactRefMatch(UpdateAppInstalledMetadata(iref, res), iref)
  {
  }

  /** `updateAppState`: installed with the found ref's data when a
      deployment is found, otherwise marked not installed and left as is. */
  function UpdateAppState(inst: Installation, res: Resource): (r: Resource)
    ensures IsInstalled(r) <==> GetInstalledRefForApp(inst, res).Some?
    ensures GetInstalledRefForApp(inst, res).None? ==> r == res.(state := NotInstalled)
    ensures GetInstalledRefForApp(inst, res).Some? ==>
              r == UpdateAppInstalledMetadata(GetInstalledRefForApp(inst, res).value, res)
    ensures r.component == res.component && r.rtype == res.rtype && r.scope == res.scope
    ensures r.iconPath == res.iconPath && r.runtime == res.runtime
  {
    match GetInstalledRefForApp(inst, res)
    case Some(iref) => UpdateAppInstalledMetadata(iref, res)
    case None => res.(state := NotInstalled)
  }

  /** An installation deploys each ref at most once. */
  ghost predicate UniqueDeployments(inst: Installation)
  {
    forall i, j :: 0 <= i < j < |inst.installed| ==> inst.installed[i].ref != inst.installed[j].ref
  }

  /** Refreshing the install state twice is the same as refreshing it once,
      provided the deployment found is of the resource's own kind. */
  lemma {:induction false} UpdateAppStateIdempotent(inst: Installation, res: Resource)
    requires UniqueDeployments(inst)
    requires GetInstalledRefForApp(inst, res).Some? ==>
               GetInstalledRefForApp(inst, res).value.ref.kind == KindOfType(res.rtype)
    ensures UpdateAppState(inst, UpdateAppState(inst, res)) == UpdateAppState(inst, res)
  {
    var once := UpdateAppState(inst, res);
    match GetInstalledRefForApp(inst, res)
    case None =>
      LookupReadsIdentityOnly(inst, once, res);
    case Some(iref) =>
      RefreshedResourceIsExactMatch(iref, res);
      var k :| 0 <= k < |inst.installed| && inst.installed[k] == iref;
      var again := GetInstalledRefForApp(inst, once);
      assert again.Some? && ExactRefMatch(once, again.value);
      var m :| 0 <= m < |inst.installed| && inst.installed[m] == again.value;
      assert inst.installed[m].ref == inst.installed[k].ref;
      assert m == k;
  }
}

=== FILE: metadata.dfy ===
/** Filling in a resource's flatpak identity and runtime: `createFakeRef`,
    `parseMetadataFromAppBundle` and `updateAppMetadata`. */
module AppMetadata {
  import opened Wrappers
  import opened Strings
  import opened FlatpakRefs
  import opened Resources
  import opened Installations
  import opened RefMatching

  /** A resource after a step that may fail; the resource carries whatever
      the step changed before it failed. */
  datatype Step = Step(ok: bool, resource: Resource)

  /** The ref a resource's own kind, name, arch and branch describe. */
  function RefOf(res: Resource): Ref
  {
    Ref(KindOfType(res.rtype), res.flatpakName, res.arch, res.branch)
  }

  /** `createFakeRef`: parses `type/name/arch/branch` built from the
      resource, so it succeeds exactly when that ref is well formed, and
      then yields that very ref. */
  function CreateFakeRef(res: Resource): (r: Option<Ref>)
    ensures r.Some? <==> WellFormed(RefOf(res))
    ensures r.Some? ==> r.value == RefOf(res)
  {
    var s := RefString(TypeString(res.rtype), res.flatpakName, res.arch, res.branch);
    assert s == FormatRef(RefOf(res));
    FormatRefParsesIffWellFormed(RefOf(res));
    if WellFormed(RefOf(res)) then ParseFormatRoundTrip(RefOf(res)); ParseRef(s)
    else ParseRef(s)
  }

  /** `parseMetadataFromAppBundle`: a resource without a flatpak bundle is
      left alone; otherwise the bundle id must parse as a ref, whose arch,
      branch, name and kind the resource takes. */
  function ParseMetadataFromAppBundle(res: Resource): (out: Step)
    ensures res.component.bundle.None? ==> out == Step(true, res)
    ensures res.component.bundle.Some? ==> (out.ok <==> ParseRef(res.component.bundle.value).Some?)
    ensures !out.ok ==> out.resource == res
    ensures out.resource.(arch := res.arch, branch := res.branch, flatpakName := res.flatpakName,
                          rtype := res.rtype) == res
    ensures out.ok && res.component.bundle.Some? ==>
              FormatRef(RefOf(out.resource)) == res.component.bundle.value
  {
    match res.component.bundle
    case None => Step(true, res)
    case Some(id) =>
      match ParseRef(id)
      case None => Step(false, res)
      case Some(ref) =>
        FormatParseRoundTrip(id);
        var r := res.(arch := ref.arch, branch := ref.branch, flatpakName := ref.name,
                      rtype := TypeOfKind(ref.kind));
        assert RefOf(r) == ref by {
          assert KindOfType(TypeOfKind(ref.kind)) == ref.kind;
        }
        Step(true, r)
  }

  /** After a bundle has been read, the fake ref built for the resource is
      the bundle's own ref. */
  lemma FakeRefOfBundledResource(res: Resource)
    requires res.component.bundle.Some? && ParseMetadataFromAppBundle(res).ok
    ensures CreateFakeRef(ParseMetadataFromAppBundle(res).resource) == ParseRef(res.component.bundle.value)
  {
    var r := ParseMetadataFromAppBundle(res).resource;
    var id := res.component.bundle.value;
    assert FormatRef(RefOf(r)) == id;
    var parsed := ParseRef(id).value;
    FormatParseRoundTrip(id);
    ParseFormatRoundTrip(parsed);
    assert ParseRef(FormatRef(parsed)) == Some(parsed);
    assert RefOf(r) == parsed by {
      assert r.flatpakName == parsed.name && r.arch == parsed.arch && r.branch == parsed.branch;
      assert KindOfType(TypeOfKind(parsed.kind)) == parsed.kind;
    }
  }

  /** Path of the installed app's `active/metadata` file. */
  function MetadataPath(inst: Installation, res: Resource): string
  {
    inst.path + "/app/" + res.flatpakName + "/" + res.arch + "/" + res.branch + "/active/metadata"
  }

  /** The metadata document `updateAppMetadata` reads: the local file when
      it exists, otherwise the remote copy, which needs an origin and a
      parsable fake ref. */
  function LocateMetadata(inst: Installation, res: Resource): (md: Option<Metadata>)
    ensures MetadataPath(inst, res) in inst.files ==> md == Some(inst.files[MetadataPath(inst, res)])
    ensures md.Some? && MetadataPath(inst, res) !in inst.files ==>
              res.origin != "" && CreateFakeRef(res).Some?
              && (res.origin, RefOf(res)) in inst.remoteMetadata
              && md.value == inst.remoteMetadata[(res.origin, RefOf(res))]
    ensures (MetadataPath(inst, res) !in inst.files && res.origin != "" && CreateFakeRef(res).Some?
             && (res.origin, RefOf(res)) in inst.remoteMetadata) ==> md.Some?
  {
    var path := MetadataPath(inst, res);
    if path in inst.files then Some(inst.files[path])
    else if res.origin == "" then None
    else
      match CreateFakeRef(res)
      case None => None
      case Some(ref) =>
        if (res.origin, ref) in inst.remoteMetadata then Some(inst.remoteMetadata[(res.origin, ref)])
        else None
  }

  /** `updateAppMetadata`: for applications, records the runtime named by
      a non-empty metadata document; only the runtime field ever changes. */
  function UpdateAppMetadata(inst: Installation, res: Resource): (out: Step)
    ensures out.resource.(runtime := res.runtime) == res
    ensures res.rtype != DesktopApp ==> out == Step(true, res)
    ensures res.rtype == DesktopApp ==>
              (out.ok <==> LocateMetadata(inst, res).Some? && LocateMetadata(inst, res).value.raw != "")
    ensures res.rtype == DesktopApp && out.ok ==>
              out.resource.runtime == LocateMetadata(inst, res).value.runtime
    ensures !out.ok ==> out.resource == res
  {
    if res.rtype != DesktopApp then Step(true, res)
    else
      match LocateMetadata(inst, res)
      case None => Step(false, res)
      case Some(md) =>
        if md.raw == "" then Step(false, res)
        else Step(true, res.(runtime := md.runtime))
  }
}

=== FILE: queries.dfy ===
/** The backend's two queries over its resource table: free-text `search`
    and the `flatpak://` locator lookup `findResourceByPackageName`. */
module BackendQueries {
  import opened Strings
  import opened Resources
  import opened Catalogs
  import opened FlatpakBackend

  /** A named stream of results; every stream this backend returns is
      called "FlatpakStream" and delivers all its resources at once. */
  datatype ResultsStream = ResultsStream(name: string, resources: seq<Resource>)

  const StreamName: string := "FlatpakStream"

  /** The two parts of a QUrl the locator lookup reads. */
  datatype Url = Url(scheme: string, host: string)

  /** A resource the search returns: an application whose name or summary
      contains the search text, ignoring case. */
  predicate Matches(r: Resource, filter: string)
  {
    r.rtype == DesktopApp && (ContainsIgnoreCase(r.component.name, filter) || ContainsIgnoreCase(r.component.comment, filter))
  }

  /** The keys among `keys` whose entries match the search text. */
  ghost function MatchingKeys(cat: Catalog, keys: seq<string>, filter: string): set<string>
  {
    set k | k in keys && k in cat.entries && Matches(cat.entries[k], filter)
  }

  lemma MatchingKeysCons(cat: Catalog, keys: seq<string>, filter: string)
    requires |keys| > 0 && keys[0] in cat.entries
    ensures MatchingKeys(cat, keys, filter)
            == (if Matches(cat.entries[keys[0]], filter) then {keys[0]} else {}) + MatchingKeys(cat, keys[1..], filter)
    ensures (forall i :: 0 < i < |keys| ==> keys[i] != keys[0]) ==> keys[0] !in MatchingKeys(cat, keys[1..], filter)
  {
    assert keys == [keys[0]] + keys[1..];
  }

  /** The matching resources stored under `keys`, in the order of `keys`. */
  function SearchIn(cat: Catalog, keys: seq<string>, filter: string): (found: seq<Resource>)
    requires forall i :: 0 <= i < |keys| ==> keys[i] in cat.entries
    ensures |found| <= |keys|
    ensures forall r :: r in found <==>
              exists i :: 0 <= i < |keys| && cat.entries[keys[i]] == r && Matches(r, filter)
    decreases |keys|
  {
    if |keys| == 0 then []
    else
      var rest := SearchIn(cat, keys[1..], filter);
      var r := cat.entries[keys[0]];
      assert forall x :: (exists i :: 0 <= i < |keys| && cat.entries[keys[i]] == x && Matches(x, filter)) <==>
                         (x == r && Matches(r, filter))
                         || (exists i :: 0 <= i < |keys[1..]| && cat.entries[keys[1..][i]] == x && Matches(x, filter)) by {
        forall x | exists i :: 0 <= i < |keys| && cat.entries[keys[i]] == x && Matches(x, filter)
          ensures (x == r && Matches(r, filter))
                  || exists i :: 0 <= i < |keys[1..]| && cat.entries[keys[1..][i]] == x && Matches(x, filter)
        {
          var i :| 0 <= i < |keys| && cat.entries[keys[i]] == x && Matches(x, filter);
          if i > 0 {
            assert keys[1..][i - 1] == keys[i];
          }
        }
        forall x | exists i :: 0 <= i < |keys[1..]| && cat.entries[keys[1..][i]] == x && Matches(x, filter)
          ensures exists i :: 0 <= i < |keys| && cat.entries[keys[i]] == x && Matches(x, filter)
        {
          var i :| 0 <= i < |keys[1..]| && cat.entries[keys[1..][i]] == x && Matches(x, filter);
          assert keys[i + 1] == keys[1..][i];
        }
      }
      if Matches(r, filter) then [r] + rest else rest
  }

  /** Over distinct keys the search yields one resource per matching key. */
  lemma {:induction false} SearchInCount(cat: Catalog, keys: seq<string>, filter: string)
    requires forall i :: 0 <= i < |keys| ==> keys[i] in cat.entries
    requires forall i, j :: 0 <= i < j < |keys| ==> keys[i] != keys[j]
    ensures |SearchIn(cat, keys, filter)| == |MatchingKeys(cat, keys, filter)|
    decreases |keys|
  {
    if |keys| == 0 {
      assert MatchingKeys(cat, keys, filter) == {};
    } else {
      MatchingKeysCons(cat, keys, filter);
      SearchInCount(cat, keys[1..], filter);
    }
  }

  /** Over a table's own enumeration the search yields one resource per
      matching key. */
  lemma SearchCount(cat: Catalog, filter: string)
    requires cat.Valid()
    ensures |SearchIn(cat, cat.order, filter)| == |set k | k in cat.entries && Matches(cat.entries[k], filter)|
  {
    SearchInCount(cat, cat.order, filter);
    assert MatchingKeys(cat, cat.order, filter) == set k | k in cat.entries && Matches(cat.entries[k], filter);
  }

  /** `search`: every application in the table whose name or summary
      contains the search text, ignoring case, and nothing else. */
  function Search(b: Backend, filter: string): (out: ResultsStream)
    requires b.Valid()
    ensures out.name == StreamName
    ensures |out.resources| <= |b.resources.entries|
    ensures forall r :: r in out.resources <==>
              (exists k :: k in b.resources.entries && b.resources.entries[k] == r) && Matches(r, filter)
    ensures |out.resources| == |set k | k in b.resources.entries && Matches(b.resources.entries[k], filter)|
  {
    var cat := b.resources;
    var found := SearchIn(cat, cat.order, filter);
    SearchCount(cat, filter);
    assert |cat.order| == |cat.entries| by {
      DistinctCardinality(cat);
    }
    SearchMembers(cat, filter);
    ResultsStream(StreamName, found)
  }

  /** Over a table's own enumeration the search finds exactly the matching
      entries. */
  lemma SearchMembers(cat: Catalog, filter: string)
    requires cat.Valid()
    ensures forall r :: r in SearchIn(cat, cat.order, filter) <==>
              (exists k :: k in cat.entries && cat.entries[k] == r) && Matches(r, filter)
  {
    forall r | (exists k :: k in cat.entries && cat.entries[k] == r) && Matches(r, filter)
      ensures r in SearchIn(cat, cat.order, filter)
    {
      var k :| k in cat.entries && cat.entries[k] == r;
      var i :| 0 <= i < |cat.order| && cat.order[i] == k;
    }
  }

  /** Searching is blind to the case of the search text. */
  lemma {:induction false} SearchIgnoresFilterCase(b: Backend, filter: string)
    requires b.Valid()
    ensures Search(b, filter) == Search(b, Lower(filter))
  {
    LowerIdempotent(filter);
    SearchInIgnoresFilterCase(b.resources, b.resources.order, filter);
  }

  lemma {:induction false} SearchInIgnoresFilterCase(cat: Catalog, keys: seq<string>, filter: string)
    requires forall i :: 0 <= i < |keys| ==> keys[i] in cat.entries
    ensures SearchIn(cat, keys, filter) == SearchIn(cat, keys, Lower(filter))
    decreases |keys|
  {
    if |keys| > 0 {
      LowerIdempotent(filter);
      SearchInIgnoresFilterCase(cat, keys[1..], filter);
      var r := cat.entries[keys[0]];
      assert Matches(r, filter) == Matches(r, Lower(filter));
    }
  }

  /** The table key a locator's host names: dots become spaces. */
  function LocatorKey(host: string): (k: string)
    ensures |k| == |host| && '.' !in k
    ensures forall i :: 0 <= i < |host| ==> k[i] == (if host[i] == '.' then ' ' else host[i])
  {
    ReplaceChar(host, '.', ' ')
  }

  /** `findResourceByPackageName`: for a `flatpak` URL, the resource stored
      under the key its host names, when there is one; otherwise nothing. */
  function FindResourceByPackageName(b: Backend, url: Url): (out: ResultsStream)
    ensures out.name == StreamName
    ensures |out.resources| <= 1
    ensures |out.resources| == 1 <==> url.scheme == "flatpak" && LocatorKey(url.host) in b.resources.entries
    ensures |out.resources| == 1 ==> out.resources[0] == b.resources.entries[LocatorKey(url.host)]
  {
    var key := LocatorKey(url.host);
    if url.scheme == "flatpak" && key in b.resources.entries then
      ResultsStream(StreamName, [b.resources.entries[key]])
    else ResultsStream(StreamName, [])
  }

  /** A key without dots is found from the `flatpak` URL whose host is the
      key itself. In a valid backend every key is a unique id holding '/',
      which a URL host cannot contain, so such lookups do not happen there;
      see LocatorMissesUniqueIds. */
  lemma LocatorFindsDotlessKey(b: Backend, k: string)
    requires k in b.resources.entries && '.' !in k
    ensures FindResourceByPackageName(b, Url("flatpak", k)).resources == [b.resources.entries[k]]
  {
    assert LocatorKey(k) == k;
  }

  /** Every key the backend inserts is a unique id and holds a '/', so a
      host without one never finds anything. */
  lemma LocatorMissesUniqueIds(b: Backend, url: Url)
    requires b.Valid() && '/' !in url.host
    ensures FindResourceByPackageName(b, url).resources == []
  {
    var key := LocatorKey(url.host);
    assert '/' !in key by {
      forall i | 0 <= i < |key|
        ensures key[i] != '/'
      {
        assert url.host[i] != '/';
      }
    }
  }
}

=== FILE: refs.dfy ===
/** Flatpak refs: the `kind/name/arch/branch` strings that name one
    deployable application or runtime, as produced by `createFakeRef` and
    read back by libflatpak's `flatpak_ref_parse`. */
module FlatpakRefs {
  import opened Wrappers
  import opened Strings

  /** FLATPAK_REF_KIND_APP / FLATPAK_REF_KIND_RUNTIME. */
  datatype RefKind = KindApp | KindRuntime

  datatype Ref = Ref(kind: RefKind, name: string, arch: string, branch: string)

  function KindString(k: RefKind): string
  {
    match k
    case KindApp => "app"
    case KindRuntime => "runtime"
  }

  /** The `%1/%2/%3/%4` string `createFakeRef` builds from a kind string, a
      name, an arch and a branch. */
  function RefString(kind: string, name: string, arch: string, branch: string): string
  {
    Join([kind, name, arch, branch], '/')
  }

  function FormatRef(r: Ref): string
  {
    RefString(KindString(r.kind), r.name, r.arch, r.branch)
  }

  /** A ref libflatpak accepts: its name, arch and branch are non-empty and
      free of the separator. */
  predicate WellFormed(r: Ref)
  {
    && r.name != "" && r.arch != "" && r.branch != ""
    && '/' !in r.name && '/' !in r.arch && '/' !in r.branch
  }

  /** `flatpak_ref_parse`: exactly four '/'-separated parts, the first
      being "app" or "runtime", none of the other three empty. */
  function ParseRef(s: string): (r: Option<Ref>)
    ensures r.Some? ==> WellFormed(r.value)
    ensures CountChar(s, '/') != 3 ==> r.None?
  {
    SplitCount(s, '/');
    var parts := Split(s, '/');
    if |parts| != 4 then None
    else if parts[0] != "app" && parts[0] != "runtime" then None
    else if parts[1] == "" || parts[2] == "" || parts[3] == "" then None
    else Some(Ref(if parts[0] == "app" then KindApp else KindRuntime, parts[1], parts[2], parts[3]))
  }

  /** Every well-formed ref survives formatting and parsing unchanged. */
  lemma ParseFormatRoundTrip(r: Ref)
    requires WellFormed(r)
    ensures ParseRef(FormatRef(r)) == Some(r)
  {
    JoinSplit([KindString(r.kind), r.name, r.arch, r.branch], '/');
  }

  /** A formatted ref parses exactly when it is well formed: a separator
      inside a field adds a fifth part, and an empty field is rejected. */
  lemma FormatRefParsesIffWellFormed(r: Ref)
    ensures ParseRef(FormatRef(r)).Some? <==> WellFormed(r)
  {
    if WellFormed(r) {
      ParseFormatRoundTrip(r);
    } else {
      var parts := [KindString(r.kind), r.name, r.arch, r.branch];
      CountCharJoin(parts, '/');
      SplitCount(FormatRef(r), '/');
      if '/' in r.name || '/' in r.arch || '/' in r.branch {
        assert '/' in parts[1] || '/' in parts[2] || '/' in parts[3];
      } else {
        JoinSplit(parts, '/');
      }
    }
  }

  /** Whatever parses is the formatting of the ref it parses to. */
  lemma FormatParseRoundTrip(s: string)
    requires ParseRef(s).Some?
    ensures FormatRef(ParseRef(s).value) == s
  {
    var parts := Split(s, '/');
    SplitJoin(s, '/');
    SplitCount(s, '/');
    assert parts == [parts[0], parts[1], parts[2], parts[3]];
  }
}

=== FILE: resources.dfy ===
/** Flatpak resources: one installable application or runtime with its
    AppStream data, its flatpak identity, its install state and its size.
    FlatpakResource.cpp is not part of this model; the accessors the backend
    uses are modelled as the fields below, and `uniqueId` as the composite
    key the backend itself builds for installed refs. */
module Resources {
  import opened Wrappers
  import opened Strings

  /** FlatpakResource::Scope. */
  datatype Scope = System | User

  /** FlatpakResource::ResourceType. */
  datatype ResourceType = DesktopApp | Runtime

  /** AbstractResource::State as far as this backend sets it: NotInstalled
      is AbstractResource::None. */
  datatype State = NotInstalled | Installed

  /** AppStream::Component::Kind, reduced to the one distinction the
      backend makes. */
  datatype ComponentKind = DesktopAppComponent | OtherComponent

  /** The AppStream component a resource wraps: its id, display name,
      summary, kind and the id of its flatpak bundle (None when the bundle
      is empty). */
  datatype Component = Component(
    id: string,
    name: string,
    comment: string,
    kind: ComponentKind,
    bundle: Option<string>)

  datatype Resource = Resource(
    component: Component,
    rtype: ResourceType,
    scope: Scope,
    origin: string,
    iconPath: string,
    arch: string,
    branch: string,
    commit: string,
    flatpakName: string,
    runtime: string,
    size: nat,
    state: State)

  predicate IsInstalled(r: Resource)
  {
    r.state == Installed
  }

  function ScopeString(s: Scope): string
  {
    match s
    case System => "system"
    case User => "user"
  }

  function TypeString(t: ResourceType): string
  {
    match t
    case DesktopApp => "app"
    case Runtime => "runtime"
  }

  /** The `scope/flatpak/origin/type/appId/branch` composite key. */
  function ComposeId(scope: Scope, origin: string, t: ResourceType, appId: string, branch: string): string
  {
    Join([ScopeString(scope), "flatpak", origin, TypeString(t), appId, branch], '/')
  }

  function UniqueId(r: Resource): string
  {
    ComposeId(r.scope, r.origin, r.rtype, r.component.id, r.branch)
  }

  /** A resource freshly wrapped around an AppStream component: an
      application with no flatpak identity yet, not installed, size unknown. */
  function NewResource(c: Component): (r: Resource)
    ensures r.component == c && r.size == 0 && !IsInstalled(r)
  {
    Resource(c, DesktopApp, System, "", "", "", "", "", "", "", 0, NotInstalled)
  }

  /** Every unique id contains the separator, so no string without one can
      be a key the backend inserted. */
  lemma UniqueIdHasSlash(r: Resource)
    ensures '/' in UniqueId(r)
  {
  }

  /** When origin, AppStream id and branch are free of '/', the unique id
      splits back into its six fields, so equal ids mean equal fields. */
  lemma UniqueIdDetermines(a: Resource, b: Resource)
    requires '/' !in a.origin && '/' !in a.component.id && '/' !in a.branch
    requires '/' !in b.origin && '/' !in b.component.id && '/' !in b.branch
    requires UniqueId(a) == UniqueId(b)
    ensures a.scope == b.scope && a.origin == b.origin && a.rtype == b.rtype
    ensures a.component.id == b.component.id && a.branch == b.branch
  {
    var pa := [ScopeString(a.scope), "flatpak", a.origin, TypeString(a.rtype), a.component.id, a.branch];
    var pb := [ScopeString(b.scope), "flatpak", b.origin, TypeString(b.rtype), b.component.id, b.branch];
    assert '/' !in "flatpak" && '/' !in ScopeString(a.scope) && '/' !in TypeString(a.rtype);
    assert '/' !in ScopeString(b.scope) && '/' !in TypeString(b.rtype);
    JoinSplit(pa, '/');
    JoinSplit(pb, '/');
    assert pa == pb;
    assert ScopeString(a.scope) == ScopeString(b.scope);
    assert TypeString(a.rtype) == TypeString(b.rtype);
  }
}

/** The native flatpak installation, seen from the backend as data: what
    libflatpak would answer to each query the backend makes. */
module Installations {
  import opened Wrappers
  import opened FlatpakRefs
  import opened Resources

  /** FlatpakInstalledRef: a deployed ref with its origin remote, commit and
      installed size. */
  datatype InstalledRef = InstalledRef(ref: Ref, origin: string, commit: string, installedSize: nat)

  /** An app's key/value metadata file: its raw text, and the value of
      `runtime` in its `[Application]` group ("" when absent). */
  datatype Metadata = Metadata(raw: string, runtime: string)

  /** Answer of `flatpak_installation_fetch_remote_size_sync`. */
  datatype RemoteSize = RemoteSize(download: nat, installed: nat)

  /** A configured remote: its name, whether it is disabled, its AppStream
      directory (None when libflatpak gives none) and the components of its
      `appstream.xml.gz` (None when the file is missing or fails to parse). */
  datatype Remote = Remote(
    name: string,
    disabled: bool,
    appstreamDir: Option<string>,
    components: Option<seq<Component>>)

  /** One file of `exports/share/applications/`: its name and the
      component parsed from it (None when parsing fails). */
  datatype DesktopEntry = DesktopEntry(fileName: string, component: Option<Component>)

  datatype Installation = Installation(
    isUser: bool,
    path: string,
    /** Deployed refs, in the order libflatpak lists them. */
    installed: seq<InstalledRef>,
    /** `flatpak_installation_list_remotes`; None when the call fails. */
    remotes: Option<seq<Remote>>,
    /** Entries of `exports/share/applications/`; None when it does not exist. */
    desktopFiles: Option<seq<DesktopEntry>>,
    /** Local `active/metadata` files by path. */
    files: map<string, Metadata>,
    /** `fetch_remote_metadata_sync` by (origin, ref); absent means failure. */
    remoteMetadata: map<(string, Ref), Metadata>,
    /** `fetch_remote_size_sync` by (origin, ref); absent means failure. */
    remoteSizes: map<(string, Ref), RemoteSize>)

  function ScopeOf(inst: Installation): Scope
  {
    if inst.isUser then User else System
  }
}

/** The backend's resource table (`m_resources`): resources keyed by unique
    id, together with the order in which the table enumerates its keys. The
    container's iteration order is not visible; the model enumerates keys in
    insertion order, which is one order the container may use. */
module Catalogs {
  import opened Resources

  datatype Catalog = Catalog(entries: map<string, Resource>, order: seq<string>) {

    /** `order` lists every key exactly once. */
    ghost predicate Valid()
    {
      && (forall i, j :: 0 <= i < j < |order| ==> order[i] != order[j])
      && (forall k :: k in entries <==> k in order)
    }

    /** QHash::insert: replaces the value under an existing key, otherwise
        adds the key at the end of the enumeration. */
    function Put(k: string, v: Resource): (c: Catalog)
      requires Valid()
      ensures c.Valid()
      ensures c.entries == entries[k := v]
      ensures k in entries ==> c.order == order
      ensures k !in entries ==> c.order == order + [k]
    {
      if k in entries then Catalog(entries[k := v], order)
      else Catalog(entries[k := v], order + [k])
    }
  }

  /** The key list of a valid table is as long as the table. */
  lemma DistinctCardinality(cat: Catalog)
    requires cat.Valid()
    ensures |cat.order| == |cat.entries|
  {
    DistinctSeqCardinality(cat.order);
    assert cat.entries.Keys == set k | k in cat.order;
  }

  lemma {:induction false} DistinctSeqCardinality(s: seq<string>)
    requires forall i, j :: 0 <= i < j < |s| ==> s[i] != s[j]
    ensures |set k | k in s| == |s|
  {
    if |s| > 0 {
      DistinctSeqCardinality(s[1..]);
      assert (set k | k in s) == (set k | k in s[1..]) + {s[0]};
      assert s[0] !in s[1..];
    }
  }

  /** Two resources with the same AppStream data, type, scope and icon
      path: what refreshing install state, runtime or size leaves alone. */
  predicate SameData(a: Resource, b: Resource)
  {
    a.component == b.component && a.rtype == b.rtype && a.scope == b.scope && a.iconPath == b.iconPath
  }

  /** Every entry of `before` is still in `after`, with the same data. */
  ghost predicate KeepsData(before: Catalog, after: Catalog)
  {
    forall k :: k in before.entries ==> k in after.entries && SameData(before.entries[k], after.entries[k])
  }

  /** Every entry of `before` outside `changed` is still in `after`, with
      the same data. */
  ghost predicate KeepsDataExcept(before: Catalog, after: Catalog, changed: set<string>)
  {
    forall k :: k in before.entries && k !in changed ==> k in after.entries && SameData(before.entries[k], after.entries[k])
  }

  lemma KeepsDataTransitive(a: Catalog, b: Catalog, c: Catalog)
    requires KeepsData(a, b) && KeepsData(b, c)
    ensures KeepsData(a, c)
  {
  }

  function EmptyCatalog(): (c: Catalog)
    ensures c.Valid() && c.entries == map[]
  {
    Catalog(map[], [])
  }
}

=== FILE: sizes.dfy ===
/** Finding an application's runtime in the resource table
    (`getRuntimeForApp`) and computing sizes (`updateAppSize`). */
module AppSize {
  import opened Wrappers
  import opened Seqs
  import opened Strings
  import opened FlatpakRefs
  import opened Resources
  import opened Installations
  import opened Catalogs
  import opened RefMatching
  import opened AppMetadata

  /** The key suffix `runtime/<name>/<branch>` a `name/arch/branch` runtime
      string asks for; None unless the string has exactly three parts. */
  function RuntimeSuffix(runtime: string): (suffix: Option<string>)
    ensures suffix.Some? <==> CountChar(runtime, '/') == 2
    ensures suffix.Some? ==> |Split(runtime, '/')| == 3
                             && suffix.value == "runtime/" + Split(runtime, '/')[0] + "/" + Split(runtime, '/')[2]
  {
    SplitCount(runtime, '/');
    var parts := Split(runtime, '/');
    if |parts| != 3 then None
    else
      assert Join(["runtime", parts[0], parts[2]], '/') == "runtime/" + parts[0] + "/" + parts[2] by {
        assert ["runtime", parts[0], parts[2]][1..] == [parts[0], parts[2]];
        assert [parts[0], parts[2]][1..] == [parts[2]];
        assert Join([parts[0], parts[2]], '/') == parts[0] + "/" + parts[2];
        assert "runtime" + ['/'] == "runtime/";
      }
      Some(Join(["runtime", parts[0], parts[2]], '/'))
  }

  /** The suffix asked for by a `name/arch/branch` runtime string whose
      parts hold no '/': `runtime/<name>/<branch>`, whatever the arch. */
  lemma RuntimeSuffixOfParts(name: string, arch: string, branch: string)
    requires '/' !in name && '/' !in arch && '/' !in branch
    ensures RuntimeSuffix(Join([name, arch, branch], '/')) == Some("runtime/" + name + "/" + branch)
  {
    JoinSplit([name, arch, branch], '/');
    SplitCount(Join([name, arch, branch], '/'), '/');
  }

  /** The first of `keys` ending with the runtime's suffix. */
  function FindRuntimeKey(keys: seq<string>, runtime: string): (key: Option<string>)
    ensures key.Some? ==> RuntimeSuffix(runtime).Some? && key.value in keys
                          && EndsWith(key.value, RuntimeSuffix(runtime).value)
    ensures key.Some? ==> exists i :: 0 <= i < |keys| && keys[i] == key.value
                            && forall j :: 0 <= j < i ==> !EndsWith(keys[j], RuntimeSuffix(runtime).value)
    ensures key.None? <==> RuntimeSuffix(runtime).None?
                           || forall i :: 0 <= i < |keys| ==> !EndsWith(keys[i], RuntimeSuffix(runtime).value)
  {
    match RuntimeSuffix(runtime)
    case None => None
    case Some(suffix) =>
      match FirstWhere(keys, (k: string) => EndsWith(k, suffix))
      case None => None
      case Some(i) => Some(keys[i])
  }

  /** `getRuntimeForApp`: the key of the first table entry whose key ends
      with `runtime/<name>/<branch>`; the arch part is not looked at. */
  function GetRuntimeForApp(cat: Catalog, runtime: string): (key: Option<string>)
    requires cat.Valid()
    ensures key.Some? ==> key.value in cat.entries && RuntimeSuffix(runtime).Some?
                          && EndsWith(key.value, RuntimeSuffix(runtime).value)
    ensures key.None? <==> RuntimeSuffix(runtime).None?
                           || forall k :: k in cat.entries ==> !EndsWith(k, RuntimeSuffix(runtime).value)
  {
    var key := FindRuntimeKey(cat.order, runtime);
    assert key.None? && RuntimeSuffix(runtime).Some? ==>
             forall k :: k in cat.entries ==> !EndsWith(k, RuntimeSuffix(runtime).value) by {
      if key.None? && RuntimeSuffix(runtime).Some? {
        forall k | k in cat.entries
          ensures !EndsWith(k, RuntimeSuffix(runtime).value)
        {
          var i :| 0 <= i < |cat.order| && cat.order[i] == k;
        }
      }
    }
    key
  }

  /** The arch part of a runtime string never changes which entry is found. */
  lemma RuntimeArchIgnored(cat: Catalog, name: string, arch1: string, arch2: string, branch: string)
    requires cat.Valid()
    requires '/' !in name && '/' !in arch1 && '/' !in arch2 && '/' !in branch
    ensures GetRuntimeForApp(cat, Join([name, arch1, branch], '/'))
            == GetRuntimeForApp(cat, Join([name, arch2, branch], '/'))
  {
    JoinSplit([name, arch1, branch], '/');
    JoinSplit([name, arch2, branch], '/');
  }

  /** A runtime keyed by its own unique id is found from any
      `name/arch/branch` string naming its AppStream id and branch. */
  lemma CataloguedRuntimeIsFound(cat: Catalog, k: string, arch: string)
    requires cat.Valid() && k in cat.entries
    requires k == UniqueId(cat.entries[k]) && cat.entries[k].rtype == Runtime
    requires '/' !in cat.entries[k].component.id && '/' !in arch && '/' !in cat.entries[k].branch
    ensures var found := GetRuntimeForApp(cat, Join([cat.entries[k].component.id, arch, cat.entries[k].branch], '/'));
            found.Some? && EndsWith(found.value, "runtime/" + cat.entries[k].component.id + "/" + cat.entries[k].branch)
  {
    var rt := cat.entries[k];
    var runtime := Join([rt.component.id, arch, rt.branch], '/');
    JoinSplit([rt.component.id, arch, rt.branch], '/');
    SplitCount(runtime, '/');
    var parts := [ScopeString(rt.scope), "flatpak", rt.origin, "runtime", rt.component.id, rt.branch];
    JoinEndsWithTail(parts, '/', 3);
    assert parts[3..] == ["runtime", rt.component.id, rt.branch];
  }

  /** The answer of `fetch_remote_size_sync` for the resource's fake ref
      and origin; None when the fake ref cannot be built or the fetch fails. */
  function RemoteSizeOf(inst: Installation, res: Resource): (sz: Option<RemoteSize>)
    ensures sz.Some? ==> WellFormed(RefOf(res)) && (res.origin, RefOf(res)) in inst.remoteSizes
                         && sz.value == inst.remoteSizes[(res.origin, RefOf(res))]
    ensures WellFormed(RefOf(res)) && (res.origin, RefOf(res)) in inst.remoteSizes ==> sz.Some?
  {
    match CreateFakeRef(res)
    case None => None
    case Some(ref) =>
      if (res.origin, ref) in inst.remoteSizes then Some(inst.remoteSizes[(res.origin, ref)]) else None
  }

  /** The runtime step of `updateAppSize` leaves the runtime string known:
      read from the app's metadata when it was empty. */
  function RuntimeKnown(inst: Installation, res: Resource): (out: Step)
    ensures out.resource.(runtime := res.runtime) == res
    ensures res.runtime != "" ==> out == Step(true, res)
    ensures res.runtime == "" ==> out == UpdateAppMetadata(inst, res)
  {
    if res.runtime == "" then UpdateAppMetadata(inst, res) else Step(true, res)
  }

  /** What the runtime adds to a not-installed application's size: the size
      of the runtime entry the table holds for it, when there is one and it
      is not installed. */
  function RuntimeShare(cat: Catalog, app: Resource): nat
    requires cat.Valid()
  {
    if app.rtype == DesktopApp && !IsInstalled(app) then
      match GetRuntimeForApp(cat, app.runtime)
      case Some(k) => if IsInstalled(cat.entries[k]) then 0 else cat.entries[k].size
      case None => 0
    else 0
  }

  /** A resource and the resource table after a size computation. */
  datatype SizeOutcome = SizeOutcome(ok: bool, resource: Resource, resources: Catalog)

  /** The last part of `updateAppSize`: installed resources take their
      deployment's installed size, others the remote installed size, plus
      the size of their runtime when that is known and not installed. */
  function FinalSize(inst: Installation, cat: Catalog, app: Resource, runtime: Option<Resource>): (out: SizeOutcome)
    ensures out.resources == cat && out.resource.(size := app.size) == app
    ensures IsInstalled(app) ==> (out.ok <==> GetInstalledRefForApp(inst, app).Some?)
    ensures IsInstalled(app) && out.ok ==> out.resource.size == GetInstalledRefForApp(inst, app).value.installedSize
    ensures !IsInstalled(app) ==> (out.ok <==> RemoteSizeOf(inst, app).Some?)
    ensures !IsInstalled(app) && out.ok ==>
              out.resource.size == RemoteSizeOf(inst, app).value.installed
                                   + (if runtime.Some? && !IsInstalled(runtime.value) then runtime.value.size else 0)
  {
    if IsInstalled(app) then
      match GetInstalledRefForApp(inst, app)
      case None => SizeOutcome(false, app, cat)
      case Some(iref) => SizeOutcome(true, app.(size := iref.installedSize), cat)
    else
      match RemoteSizeOf(inst, app)
      case None => SizeOutcome(false, app, cat)
      case Some(sz) =>
        if runtime.Some? && !IsInstalled(runtime.value) then
          SizeOutcome(true, app.(size := runtime.value.size + sz.installed), cat)
        else SizeOutcome(true, app.(size := sz.installed), cat)
  }

  /** How a not-installed application's size follows from its remote size
      `appSize` and its refreshed runtime entry `rt`: an installed or
      already sized runtime is taken as it is; a runtime still to be sized
      fails the application when its own sizing fails (or the recursion
      bound is spent) and otherwise adds its remote installed size. */
  ghost predicate RuntimeSized(inst: Installation, appSize: Option<RemoteSize>, rt: Resource, fuel: nat, out: SizeOutcome)
  {
    && ((IsInstalled(rt) || rt.size > 0) && appSize.Some? ==>
          out.ok && out.resource.size == appSize.value.installed + (if IsInstalled(rt) then 0 else rt.size))
    && (!IsInstalled(rt) && rt.size == 0 && (fuel == 0 || RemoteSizeOf(inst, rt).None?) ==> !out.ok)
    && (!IsInstalled(rt) && rt.size == 0 && rt.rtype == Runtime && fuel > 0 ==>
          (out.ok <==> appSize.Some? && RemoteSizeOf(inst, rt).Some?)
          && (out.ok ==> out.resource.size == appSize.value.installed + RemoteSizeOf(inst, rt).value.installed))
  }

  /** The end of SizeWithRuntime once the runtime entry has been sized to
      `sub`: the sized entry goes back under `k`, and the application is
      sized with it unless the runtime's sizing failed. */
  function WithSizedRuntime(inst: Installation, sub: SizeOutcome, app: Resource, k: string): (out: SizeOutcome)
    requires sub.resources.Valid() && k in sub.resources.entries && !IsInstalled(app)
    requires SameData(sub.resources.entries[k], sub.resource)
    ensures out.resources.Valid() && out.resources.order == sub.resources.order
    ensures out.resources.entries.Keys == sub.resources.entries.Keys
    ensures KeepsData(sub.resources, out.resources)
    ensures k in out.resources.entries && out.resources.entries[k] == sub.resource
    ensures out.resource.(size := app.size) == app
    ensures out.ok <==> sub.ok && RemoteSizeOf(inst, app).Some?
    ensures out.ok ==> out.resource.size == RemoteSizeOf(inst, app).value.installed
                                            + (if IsInstalled(sub.resource) then 0 else sub.resource.size)
  {
    var cat := sub.resources.Put(k, sub.resource);
    if !sub.ok then SizeOutcome(false, app, cat) else FinalSize(inst, cat, app, Some(sub.resource))
  }

  /** SizeWithRuntime once the refreshed runtime entry under `k` turns out
      to be neither installed nor sized: the runtime is sized first, within
      the recursion bound, and its failure fails the application. */
  function SizeUnsizedRuntime(inst: Installation, cat: Catalog, app: Resource, k: string, fuel: nat): (out: SizeOutcome)
    requires cat.Valid() && k in cat.entries && !IsInstalled(app)
    requires !IsInstalled(cat.entries[k]) && cat.entries[k].size == 0
    ensures out.resources.Valid() && out.resources.order == cat.order
    ensures out.resources.entries.Keys == cat.entries.Keys
    ensures KeepsData(cat, out.resources)
    ensures out.resource.(size := app.size) == app
    ensures out.ok ==> RemoteSizeOf(inst, app).Some? && k in out.resources.entries
                       && out.resource.size == RemoteSizeOf(inst, app).value.installed
                            + (if IsInstalled(out.resources.entries[k]) then 0 else out.resources.entries[k].size)
    ensures RuntimeSized(inst, RemoteSizeOf(inst, app), cat.entries[k], fuel, out)
    decreases fuel, 0
  {
    if fuel == 0 then SizeOutcome(false, app, cat)
    else
      var rt := cat.entries[k];
      assert rt.rtype == Runtime ==> RuntimeKnown(inst, rt).ok;
      var sub := UpdateAppSize(inst, cat, rt, fuel - 1);
      WithSizedRuntime(inst, sub, app, k)
  }

  /** The runtime part of `updateAppSize` for a not-installed application
      whose runtime entry sits under `k`: the entry's install state is
      refreshed, its own size computed when it is not installed and not yet
      known, and the application's size set from the remote size and the
      entry's. */
  function SizeWithRuntime(inst: Installation, cat: Catalog, app: Resource, k: string, fuel: nat): (out: SizeOutcome)
    requires cat.Valid() && k in cat.entries && !IsInstalled(app)
    ensures out.resources.Valid() && out.resources.order == cat.order
    ensures out.resources.entries.Keys == cat.entries.Keys
    ensures KeepsData(cat, out.resources)
    ensures out.resource.(size := app.size) == app
    ensures RemoteSizeOf(inst, app).None? ==> !out.ok
    ensures out.ok ==> RemoteSizeOf(inst, app).Some? && k in out.resources.entries
                       && out.resource.size == RemoteSizeOf(inst, app).value.installed
                            + (if IsInstalled(out.resources.entries[k]) then 0 else out.resources.entries[k].size)
    ensures RuntimeSized(inst, RemoteSizeOf(inst, app), UpdateAppState(inst, cat.entries[k]), fuel, out)
    decreases fuel, 1
  {
    var rt := UpdateAppState(inst, cat.entries[k]);
    var cat1 := cat.Put(k, rt);
    if IsInstalled(rt) || rt.size > 0 then FinalSize(inst, cat1, app, Some(rt))
    else
      var out := SizeUnsizedRuntime(inst, cat1, app, k, fuel);
      KeepsDataTransitive(cat, cat1, out.resources);
      out
  }

  /** `updateAppSize` once the runtime string is known and the size is
      still unknown: a not-installed application's runtime entry is
      refreshed and sized, and the size is set as FinalSize describes. */
  function SizeFromKnownRuntime(inst: Installation, cat: Catalog, app: Resource, fuel: nat): (out: SizeOutcome)
    requires cat.Valid()
    ensures out.resources.Valid() && out.resources.order == cat.order
    ensures KeepsData(cat, out.resources)
    ensures out.resource.(size := app.size) == app
    ensures IsInstalled(app) ==> (out.ok <==> GetInstalledRefForApp(inst, app).Some?)
    ensures IsInstalled(app) && out.ok ==> out.resource.size == GetInstalledRefForApp(inst, app).value.installedSize
    ensures !IsInstalled(app) && RemoteSizeOf(inst, app).None? ==> !out.ok
    ensures !IsInstalled(app) && out.ok ==>
              RemoteSizeOf(inst, app).Some?
              && out.resource.size == RemoteSizeOf(inst, app).value.installed + RuntimeShare(out.resources, out.resource)
    ensures !IsInstalled(app) && RemoteSizeOf(inst, app).Some?
            && (app.rtype != DesktopApp || GetRuntimeForApp(cat, app.runtime).None?) ==>
              out.ok && out.resource.size == RemoteSizeOf(inst, app).value.installed
    ensures !IsInstalled(app) && app.rtype == DesktopApp && GetRuntimeForApp(cat, app.runtime).Some? ==>
              RuntimeSized(inst, RemoteSizeOf(inst, app),
                           UpdateAppState(inst, cat.entries[GetRuntimeForApp(cat, app.runtime).value]), fuel, out)
    decreases fuel, 2
  {
    var lookup := if !IsInstalled(app) && app.rtype == DesktopApp then GetRuntimeForApp(cat, app.runtime) else None;
    match lookup
    case None => FinalSize(inst, cat, app, None)
    case Some(k) =>
      var out := SizeWithRuntime(inst, cat, app, k, fuel);
      assert GetRuntimeForApp(out.resources, app.runtime) == lookup;
      out
  }

  /** `updateAppSize`. A known positive size is kept as is. Otherwise the
      runtime string is made known, a not-installed application's runtime
      entry is refreshed (its install state, then its own size when it is
      not installed), and the size is set as FinalSize describes. Changes
      to the runtime entry stay in the table even when a later step fails.
      `fuel` bounds the depth of the runtime recursion. */
  function UpdateAppSize(inst: Installation, cat: Catalog, res: Resource, fuel: nat): (out: SizeOutcome)
    requires cat.Valid()
    ensures out.resources.Valid() && out.resources.order == cat.order
    ensures KeepsData(cat, out.resources)
    ensures res.size > 0 ==> out == SizeOutcome(true, res, cat)
    ensures out.resource.(runtime := res.runtime, size := res.size) == res
    ensures res.size == 0 ==> out.resource.runtime == RuntimeKnown(inst, res).resource.runtime
    ensures res.size == 0 && !RuntimeKnown(inst, res).ok ==> !out.ok
    ensures res.size == 0 && IsInstalled(res) && RuntimeKnown(inst, res).ok ==>
              (out.ok <==> GetInstalledRefForApp(inst, res).Some?)
    ensures res.size == 0 && IsInstalled(res) && out.ok ==>
              out.resource.size == GetInstalledRefForApp(inst, res).value.installedSize
    ensures res.size == 0 && !IsInstalled(res) && RemoteSizeOf(inst, res).None? ==> !out.ok
    ensures res.size == 0 && !IsInstalled(res) && out.ok ==>
              RemoteSizeOf(inst, res).Some?
              && out.resource.size == RemoteSizeOf(inst, res).value.installed
                                      + RuntimeShare(out.resources, out.resource)
    ensures res.size == 0 && !IsInstalled(res) && RuntimeKnown(inst, res).ok && RemoteSizeOf(inst, res).Some?
            && (res.rtype != DesktopApp || GetRuntimeForApp(cat, RuntimeKnown(inst, res).resource.runtime).None?) ==>
              out.ok && out.resource.size == RemoteSizeOf(inst, res).value.installed
    ensures res.size == 0 && !IsInstalled(res) && res.rtype == DesktopApp && RuntimeKnown(inst, res).ok
            && GetRuntimeForApp(cat, RuntimeKnown(inst, res).resource.runtime).Some? ==>
              RuntimeSized(inst, RemoteSizeOf(inst, res),
                           UpdateAppState(inst, cat.entries[GetRuntimeForApp(cat, RuntimeKnown(inst, res).resource.runtime).value]),
                           fuel, out)
    decreases fuel, 3
  {
    if res.size > 0 then SizeOutcome(true, res, cat)
    else
      var known := RuntimeKnown(inst, res);
      if !known.ok then SizeOutcome(false, known.resource, cat)
      else
        var app := known.resource;
        LookupReadsIdentityOnly(inst, app, res);
        assert RemoteSizeOf(inst, app) == RemoteSizeOf(inst, res) by {
          assert RefOf(app) == RefOf(res);
        }
        SizeFromKnownRuntime(inst, cat, app, fuel)
  }
}

=== FILE: strings.dfy ===
/** The QString operations the backend relies on: splitting on a separator,
    joining parts with a separator (the `%1/%2/...` formats), suffix tests,
    substring search with and without case folding, and character
    replacement. */
module Strings {

  /** QString::split(sep) keeping empty parts: "a//b" gives ["a", "", "b"]
      and the empty string gives [""]. */
  function Split(s: string, sep: char): (parts: seq<string>)
    ensures |parts| >= 1
    ensures forall i :: 0 <= i < |parts| ==> sep !in parts[i]
  {
    if |s| == 0 then [""]
    else
      var rest := Split(s[1..], sep);
      if s[0] == sep then [""] + rest
      else [[s[0]] + rest[0]] + rest[1..]
  }

  /** Joins at least one part, putting `sep` between neighbours. */
  function Join(parts: seq<string>, sep: char): (s: string)
    requires |parts| >= 1
    ensures |parts| > 1 ==> sep in s
  {
    if |parts| == 1 then parts[0]
    else
      var tail := Join(parts[1..], sep);
      assert (parts[0] + [sep] + tail)[|parts[0]|] == sep;
      parts[0] + [sep] + tail
  }

  /** Number of occurrences of `c` in `s`. */
  function CountChar(s: string, c: char): nat
  {
    if |s| == 0 then 0 else (if s[0] == c then 1 else 0) + CountChar(s[1..], c)
  }

  lemma {:induction false} CountCharAppend(a: string, b: string, c: char)
    ensures CountChar(a + b, c) == CountChar(a, c) + CountChar(b, c)
  {
    if |a| > 0 {
      assert (a + b)[1..] == a[1..] + b;
      CountCharAppend(a[1..], b, c);
    } else {
      assert a + b == b;
    }
  }

  lemma {:induction false} CountCharPositive(s: string, c: char)
    ensures c in s <==> CountChar(s, c) > 0
  {
    if |s| > 0 {
      CountCharPositive(s[1..], c);
      assert s == [s[0]] + s[1..];
    }
  }

  /** A join holds at least one separator per seam, and more when a part
      carries a separator of its own. */
  lemma {:induction false} CountCharJoin(parts: seq<string>, c: char)
    requires |parts| >= 1
    ensures CountChar(Join(parts, c), c) >= |parts| - 1
    ensures (exists i :: 0 <= i < |parts| && c in parts[i]) ==> CountChar(Join(parts, c), c) >= |parts|
  {
    CountCharPositive(parts[0], c);
    if |parts| > 1 {
      var tail := Join(parts[1..], c);
      CountCharJoin(parts[1..], c);
      CountCharAppend(parts[0] + [c], tail, c);
      CountCharAppend(parts[0], [c], c);
      if exists i :: 0 <= i < |parts| && c in parts[i] {
        var i :| 0 <= i < |parts| && c in parts[i];
        if i > 0 {
          assert c in parts[1..][i - 1];
        }
      }
    }
  }

  /** Splitting yields one part more than there are separators. */
  lemma {:induction false} SplitCount(s: string, sep: char)
    ensures |Split(s, sep)| == CountChar(s, sep) + 1
  {
    if |s| > 0 {
      SplitCount(s[1..], sep);
    }
  }

  /** Joining the parts of a split gives back the original string. */
  lemma {:induction false} SplitJoin(s: string, sep: char)
    ensures Join(Split(s, sep), sep) == s
  {
    if |s| > 0 {
      var rest := Split(s[1..], sep);
      SplitJoin(s[1..], sep);
      assert s == [s[0]] + s[1..];
      if s[0] == sep {
        assert ([""] + rest)[1..] == rest;
      } else {
        JoinPrependChar(s[0], rest, sep);
      }
    }
  }

  /** A character put in front of the first part ends up in front of the
      join. */
  lemma JoinPrependChar(c: char, parts: seq<string>, sep: char)
    requires |parts| >= 1
    ensures Join([[c] + parts[0]] + parts[1..], sep) == [c] + Join(parts, sep)
  {
    var q := [[c] + parts[0]] + parts[1..];
    assert q[0] == [c] + parts[0];
    if |parts| > 1 {
      assert q[1..] == parts[1..];
    }
  }

  /** Splitting a string whose first part holds no separator. */
  lemma {:induction false} SplitAfterPlain(p: string, t: string, sep: char)
    requires sep !in p
    ensures Split(p + t, sep) == [p + Split(t, sep)[0]] + Split(t, sep)[1..]
  {
    if |p| == 0 {
      assert p + t == t;
      var x := Split(t, sep);
      assert p + x[0] == x[0];
      assert [x[0]] + x[1..] == x;
    } else {
      assert (p + t)[1..] == p[1..] + t;
      assert (p + t)[0] == p[0];
      SplitAfterPlain(p[1..], t, sep);
      assert [p[0]] + (p[1..] + Split(t, sep)[0]) == p + Split(t, sep)[0];
    }
  }

  /** A separator-free first part splits off a join on its own, whatever
      the later parts hold. */
  lemma SplitJoinHead(parts: seq<string>, sep: char)
    requires |parts| >= 2 && sep !in parts[0]
    ensures Split(Join(parts, sep), sep) == [parts[0]] + Split(Join(parts[1..], sep), sep)
  {
    var tail := Join(parts[1..], sep);
    assert [sep] + tail != [] && ([sep] + tail)[0] == sep && ([sep] + tail)[1..] == tail;
    assert Split([sep] + tail, sep) == [""] + Split(tail, sep);
    assert parts[0] + [sep] + tail == parts[0] + ([sep] + tail);
    SplitAfterPlain(parts[0], [sep] + tail, sep);
    assert parts[0] + "" == parts[0];
  }

  /** Splitting a join of separator-free parts gives back the parts. */
  lemma {:induction false} JoinSplit(parts: seq<string>, sep: char)
    requires |parts| >= 1
    requires forall i :: 0 <= i < |parts| ==> sep !in parts[i]
    ensures Split(Join(parts, sep), sep) == parts
  {
    if |parts| == 1 {
      SplitAfterPlain(parts[0], "", sep);
      assert parts[0] + "" == parts[0];
    } else {
      var tail := Join(parts[1..], sep);
      JoinSplit(parts[1..], sep);
      assert [sep] + tail != [] && ([sep] + tail)[0] == sep && ([sep] + tail)[1..] == tail;
      assert Split([sep] + tail, sep) == [""] + parts[1..];
      assert parts[0] + [sep] + tail == parts[0] + ([sep] + tail);
      SplitAfterPlain(parts[0], [sep] + tail, sep);
      assert parts[0] + "" == parts[0];
      assert [parts[0]] + parts[1..] == parts;
    }
  }

  /** `s` ends with `suffix` (QString::endsWith). */
  predicate EndsWith(s: string, suffix: string)
  {
    |suffix| <= |s| && s[|s| - |suffix|..] == suffix
  }

  lemma EndsWithAppend(prefix: string, s: string, suffix: string)
    requires EndsWith(s, suffix)
    ensures EndsWith(prefix + s, suffix)
  {
    assert (prefix + s)[|prefix + s| - |suffix|..] == s[|s| - |suffix|..];
  }

  /** A join ends with the join of any non-empty tail of its parts. */
  lemma {:induction false} JoinEndsWithTail(parts: seq<string>, sep: char, i: nat)
    requires i < |parts|
    ensures EndsWith(Join(parts, sep), Join(parts[i..], sep))
  {
    if i == 0 {
      assert parts[0..] == parts;
    } else {
      JoinEndsWithTail(parts[1..], sep, i - 1);
      assert parts[1..][i - 1..] == parts[i..];
      EndsWithAppend(parts[0] + [sep], Join(parts[1..], sep), Join(parts[i..], sep));
    }
  }

  /** `pre` is a prefix of `s` (QString::startsWith). */
  predicate IsPrefix(pre: string, s: string)
  {
    |pre| <= |s| && s[..|pre|] == pre
  }

  /** QString::contains with case-sensitive comparison: scans `hay` for a
      position where `needle` starts. The empty needle is found everywhere. */
  predicate Contains(hay: string, needle: string)
    decreases |hay|
  {
    IsPrefix(needle, hay) || (|hay| > 0 && Contains(hay[1..], needle))
  }

  /** `needle` occurs in `hay` starting at position `i`. */
  predicate OccursAt(hay: string, needle: string, i: int)
  {
    0 <= i && i + |needle| <= |hay| && hay[i..i + |needle|] == needle
  }

  /** The scan finds the needle exactly when it occurs at some position. */
  lemma {:induction false} ContainsIffOccurs(hay: string, needle: string)
    ensures Contains(hay, needle) <==> exists i :: OccursAt(hay, needle, i)
  {
    if IsPrefix(needle, hay) {
      assert OccursAt(hay, needle, 0);
    } else if |hay| == 0 {
      assert |needle| > 0;
    } else {
      ContainsIffOccurs(hay[1..], needle);
      if Contains(hay[1..], needle) {
        var i :| OccursAt(hay[1..], needle, i);
        assert hay[1..][i..i + |needle|] == hay[i + 1..i + 1 + |needle|];
        assert OccursAt(hay, needle, i + 1);
      }
      if exists i :: OccursAt(hay, needle, i) {
        assert !OccursAt(hay, needle, 0);
        var i :| OccursAt(hay, needle, i);
        assert hay[1..][i - 1..i - 1 + |needle|] == hay[i..i + |needle|];
        assert OccursAt(hay[1..], needle, i - 1);
      }
    }
  }

  /** ASCII lower-casing of one character; other characters are kept. */
  function LowerChar(c: char): char
  {
    if 'A' <= c <= 'Z' then (c as int + 32) as char else c
  }

  function Lower(s: string): (r: string)
    ensures |r| == |s|
    ensures forall i :: 0 <= i < |s| ==> r[i] == LowerChar(s[i])
  {
    seq(|s|, i requires 0 <= i < |s| => LowerChar(s[i]))
  }

  /** Lower-casing an already lower-cased string changes nothing. */
  lemma LowerIdempotent(s: string)
    ensures Lower(Lower(s)) == Lower(s)
  {
  }

  /** QString::contains with Qt::CaseInsensitive. */
  predicate ContainsIgnoreCase(hay: string, needle: string)
  {
    Contains(Lower(hay), Lower(needle))
  }

  /** QString::replace(from, to) on single characters. */
  function ReplaceChar(s: string, from: char, to: char): (r: string)
    ensures |r| == |s|
    ensures forall i :: 0 <= i < |s| ==> r[i] == (if s[i] == from then to else s[i])
  {
    seq(|s|, i requires 0 <= i < |s| => if s[i] == from then to else s[i])
  }
}

=== FILE: wrappers.dfy ===
/** Optional values: the model's stand-in for the nullable pointers the
    backend returns when a lookup finds nothing. */
module Wrappers {

  datatype Option<+T> = None | Some(value: T)
}

/** Searching a sequence front to back, the shape of every `foreach ... break`
    loop in the backend. */
module Seqs {
  import opened Wrappers

  /** Index of the first element satisfying `p`, or None when there is none. */
  function FirstWhere<T>(s: seq<T>, p: T -> bool): (r: Option<nat>)
    ensures r.Some? ==> r.value < |s| && p(s[r.value])
    ensures r.Some? ==> forall j :: 0 <= j < r.value ==> !p(s[j])
    ensures r.None? <==> forall j :: 0 <= j < |s| ==> !p(s[j])
  {
    if |s| == 0 then None
    else if p(s[0]) then Some(0)
    else
      match FirstWhere(s[1..], p)
      case None => None
      case Some(i) => Some(i + 1)
  }

  /** Dropping the head of a sequence with an element spliced in, and of
      the same sequence without it. */
  lemma SpliceTail<T>(before: seq<T>, x: T, after: seq<T>)
    requires |before| > 0
    ensures (before + [x] + after)[0] == before[0] && (before + [x] + after)[1..] == before[1..] + [x] + after
    ensures (before + after)[0] == before[0] && (before + after)[1..] == before[1..] + after
  {
  }

  /** Two predicates that agree on every element find the same first index. */
  lemma {:induction false} FirstWhereAgrees<T>(s: seq<T>, p: T -> bool, q: T -> bool)
    requires forall j :: 0 <= j < |s| ==> p(s[j]) == q(s[j])
    ensures FirstWhere(s, p) == FirstWhere(s, q)
  {
    if |s| > 0 {
      FirstWhereAgrees(s[1..], p, q);
    }
  }
}
